=== FILE: README.md ===
# A Dafny model of the gobert BERT codec

gobert encodes Go values in BERT, Erlang's external term format, and decodes them back. It also reads and writes the BURP framing used for BERT-RPC. A BURP frame is a four-byte big-endian length followed by one encoded term. On the read side, the decoded term is bound by position to a `Request {Kind, Module, Function, Arguments}`.

This project models that core:

- the wire tags and the special atoms;
- the encoder: `writeTag` and the writers it dispatches to, `Encode`/`EncodeTo`/`Marshal`, and `MarshalResponse`;
- the decoder: `readTag` and its readers, and `Decode`/`DecodeFrom`;
- the reflective request binder: `UnmarshalFrom`, `Unmarshal` and `UnmarshalRequest`.

It then proves what the round trip does and does not preserve.

Files:

- `bert_types.dfy` (module `BertTypes`): tags, atoms, the `Value` the encoder is given, the `Term` the decoder produces, `Request`, outcomes, and fixed-width integers.
- `bert_encode.dfy` (module `BertEncode`): the writers. A writer call is the bytes it appends plus how it ended:
  - it completed;
  - it stopped with `ErrUnknownType`, keeping what it had written;
  - the Go code panicked.
- `bert_decode.dfy` (module `BertDecode`): the readers, over the whole input and a position.
  - A result is `Parsed`, `ParseError` or `ParsePanic`.
  - A `ParseError` carries the term Go returns next to the error (`residue`), because `UnmarshalFrom` binds that term even when there is an error.
  - `Unmarshal` and `UnmarshalRequest` give `Returned(request)` or `Panicked`.
- `bert_roundtrip.dfy` (module `BertRoundTrip`): the relation between the two sides, where the format is asymmetric, the BURP frame round trip, and the byte vectors from the repository's tests.

Modelling conventions:

- Go's integer kinds and `big.Int` are unbounded `int`. Every truncation on the wire is written out: `uint8(len)`, `uint16(len)`, `uint32(len)`, and the signed `int(int32(x))` of `read4`.
- Panics are explicit outcomes, never errors. Each is modelled where the code has it:
  - indexing a short read in `read1`/`read2`/`read4`;
  - `make` with a negative list length;
  - the list terminator read at the end of input;
  - slicing a short bitstring buffer;
  - every failing reflective `Len`, `Elem`, `Field` or `Set` in `UnmarshalFrom`.

## Model

| member | source | states |
|---|---|---|
| BertTypes.TagsDistinct | type.go:3-18 | the thirteen value tags are pairwise distinct and none is the version marker, so one byte names the variant |
| BertTypes.SpecialAtomsDistinct | type.go:29-34 | `bert`, `nil`, `true` and `false` are four different atoms |
| BertTypes.BitPayloadSize | encode.go:104 | `(bits + 7) / 8` is the least number of whole bytes that holds `bits` bits, at most 32 |
| BertTypes.Int32At | decode.go:37-45 | four bytes read big-endian become a value in the signed 32-bit range, congruent to their unsigned value |
| BertTypes.AsInt32 | decode.go:44 | `int(int32(u))` lies in the int32 range and equals `u` modulo 2^32 |
| BertEncode.Put2 | encode.go:14-18 | `write2` emits two bytes whose big-endian value is the argument |
| BertEncode.Put4 | encode.go:20-24 | `write4` emits four bytes whose big-endian value is the argument |
| BertEncode.Magnitude | encode.go:50 | `big.Int.Bytes`: the minimal big-endian magnitude; empty exactly for zero, never a leading zero byte |
| BertEncode.LittleEndianOfReverse | encode.go:51-55 | reversing the magnitude in place gives bytes whose little-endian value is the number |
| BertEncode.Int32Wraps | encode.go:43-45 | an int32 stored as `uint32(x)` reads back as `x` under two's complement |
| BertEncode.WriteNumber | encode.go:36-63 | 0..255 is a small integer; the rest of the int32 range is a 4-byte integer that reads back as `n`; anything wider is a small bignum with the digit count mod 256, a sign byte and little-endian digits worth \|n\| with no high zero digit |
| BertEncode.WriteFloat | encode.go:65-73 | the float tag, the formatted text, then zeros up to the fixed 31-byte payload |
| BertEncode.WriteShortText | encode.go:75-79 | tag, 16-bit length truncated modulo 2^16, then the bytes unchanged |
| BertEncode.WriteAtom | encode.go:75-79 | an atom is its tag, its length mod 2^16, then its name |
| BertEncode.WriteString | encode.go:116-120 | a string is its tag, its length mod 2^16, then its bytes |
| BertEncode.WriteBinary | encode.go:95-100 | a binary is its tag, its length mod 2^32, then its bytes |
| BertEncode.Fit | encode.go:108-111 | the buffer is zero-padded in front up to `size`, or cut to its first `size` bytes |
| BertEncode.WriteBitstring | encode.go:102-112 | the byte count is the least that holds `bits`, the trailing count is `bits % 8`, and the payload is the buffer fitted to that count |
| BertEncode.Write | encode.go:138-191 | a value is written without error exactly when it is encodable; the only error is `ErrUnknownType`, and an unsupported value writes nothing and fails with it; a tuple or list ends as its element loop ends, so a failing element is an error and not a panic; a bitstring panics exactly when it is byte-aligned and its buffer is short, and no other leaf value panics |
| BertEncode.WriteLeadsWithTag | encode.go:138-191 | every write that does not panic starts with the tag of the value's wire variant, and a byte-aligned bitstring takes the binary tag |
| BertEncode.WriteAll | encode.go:86-91 | the element loop completes exactly when every element is encodable |
| BertEncode.WriteAllStops | encode.go:86-91 | a loop that does not complete stops at its first unencodable element: its output is the bytes of the elements before it, then what that element wrote, and it ends as that element ends |
| BertEncode.WriteAllFirst | encode.go:86-91 | an unfolding of one loop turn, used by `WriteAllStops`: a failing first element is the whole result; a completed one is followed by the rest of the loop |
| BertEncode.Encode | encode.go:194-205 | the output starts with the version marker; it returns unless the value panics; the error is nil exactly when the value is encodable, and `ErrUnknownType` otherwise |
| BertEncode.MarshalResponse | encode.go:214-221 | the frame is a 4-byte length of the payload mod 2^32, then exactly `Encode`'s bytes, whose error is passed on |
| BertDecode.Read1 | decode.go:17-25 | one byte when there is one, otherwise a panic; never an error |
| BertDecode.Read2 | decode.go:27-35 | the big-endian value of the next two bytes, or a panic when fewer remain |
| BertDecode.Read4 | decode.go:37-45 | the next four bytes as a signed 32-bit value, or a panic when fewer remain |
| BertDecode.ReadUpTo | decode.go:119 | a limited read-all returns the next `n` bytes, fewer at the end of input, none for `n <= 0` |
| BertDecode.ReadShortText | decode.go:113-125 | a 16-bit length then at most that many bytes, a short payload accepted as it is; a panic only when the length is missing |
| BertDecode.ReadBin | decode.go:148-160 | a signed 32-bit length then at most that many bytes: exactly that many when present, the rest of the input when the payload is cut short, none for a length `<= 0`; a panic only when the length is missing |
| BertDecode.ReadBit | decode.go:162-179 | a signed byte count, the trailing-bit byte kept as `bits`, then the payload: exactly that many bytes when present, the rest of the input when cut short, none for a count `<= 0`; a panic only when the header is missing |
| BertDecode.UpToZero | decode.go:59-65 | the longest zero-free prefix |
| BertDecode.ReadFloat | decode.go:53-72 | up to 31 bytes are consumed and the text before the first zero byte is what the float parser receives |
| BertDecode.ReadNil | decode.go:104-111 | nil is the empty sequence, and one following byte is swallowed when there is one |
| BertDecode.Collapse | decode.go:188-200 | inside a `bert` wrapper the atoms nil, true and false become Go nil, true and false; anything else is unchanged |
| BertDecode.ReadTag | decode.go:203-239 | an unknown tag fails with `ErrUnknownType` and a nil term; the end of input panics; a result lies past the tag |
| BertDecode.ReadTagged | decode.go:209-238 | the bignum and large-tuple tags and every unlisted byte are `ErrUnknownType` |
| BertDecode.ReadSmallTuple | decode.go:79-102 | a one-byte arity then the element loop (what that loop reads from an encoded tuple is stated by `ReadTagAtTuple`, `TupleElemsRun` and `ReadTupleElemsAll`); a missing arity panics; when the first element fails to decode the tuple returns `ErrUnknownType` with a nil term, and when it panics the tuple panics |
| BertDecode.ReadTupleElems | decode.go:85-101 | after all elements the result is the accumulated sequence; an element that fails to decode gives `ErrUnknownType` with a nil term, one that panics gives a panic; any error is `ErrUnknownType`, carrying a nil term or, from a wrapped list, an empty list (the elements it appends are stated by `TupleElemsRun` and `ReadTupleElemsAll`) |
| BertDecode.ReadComplex | decode.go:181-201 | the term after `bert`, collapsed; an error and its term are passed through unchanged |
| BertDecode.ReadList | decode.go:127-146 | the decoded sequence has as many elements as the signed count; a missing count panics, and so does a negative one (`make` at decode.go:133); an element error, in particular in the first element, comes back as `ErrUnknownType` with the list's nil slice, and a panicking first element panics |
| BertDecode.ReadListElems | decode.go:133-145 | with no element left, one terminator byte is consumed unchecked, or the end of input panics; otherwise the next element is the tag read at the position, a read that fails gives `ErrUnknownType` with the nil slice and one that panics gives a panic; the accumulated elements stay in front and the count is exact |
| BertDecode.Decode | decode.go:242-258 | empty input panics; a first byte other than 131 is `ErrBadMagic` and nothing else is; a result lies within the input |
| BertDecode.SetField | decode.go:272 | the assigned field holds the term and the other three are unchanged |
| BertDecode.BindFrom | decode.go:270-273 | binding succeeds exactly when there are at most four elements and each fits its field; element `j` lands in field `j` and the rest keep their values |
| BertDecode.BindRequest | decode.go:267-274 | binding survives exactly the bindable terms; fields past the sequence keep their zero values |
| BertDecode.Unmarshal | decode.go:262-283 | a decode error is discarded: a nil residue panics, a list's nil slice gives the zero request; a parsed term binds exactly when bindable |
| BertDecode.FramePayload | decode.go:294 | the payload is a prefix of the bytes after the length: exactly the declared length when the input holds it, empty for a length `<= 0`, everything after the prefix when the length exceeds it |
| BertDecode.UnmarshalRequest | decode.go:286-297 | fewer than four bytes panic, as does a length `<= 0` (the empty payload fails the first byte read); otherwise the request is what `Unmarshal` makes of the limited payload |
| BertRoundTrip.DecodedAll | decode.go:85-101 | decoding a sequence of clean values gives one term per value |
| BertRoundTrip.CleanIsEncodable | encode.go:138-191 | every value that survives the round trip is encoded without error |
| BertRoundTrip.UpToZeroOfPadded | decode.go:59-67 | the zero padding of a float payload never reaches the float parser |
| BertRoundTrip.WriteAllAppend | encode.go:86-91 | the element loop over `xs + ys` writes `xs`'s bytes then `ys`'s, ending as `ys` ends |
| BertRoundTrip.ShortTextInverts | decode.go:113-125 | an atom or string written by the encoder reads back as the same bytes |
| BertRoundTrip.BinaryInverts | decode.go:148-160 | a binary below 2^31 bytes reads back as itself |
| BertRoundTrip.BitsInverts | decode.go:162-179 | a bitstring reads back as its fitted buffer with `bits % 8` |
| BertRoundTrip.ReadTagInverts | decode.go:203-239 | where a clean value's encoding sits, the dispatcher reads exactly those bytes and returns its decoded form |
| BertRoundTrip.LeafInverts | decode.go:203-239 | the same for every value that holds no other values |
| BertRoundTrip.TupleLayout | encode.go:81-93 | a tuple is its tag, its arity truncated to one byte, then its elements' bytes; below 256 elements the arity is exact |
| BertRoundTrip.ListLayout | encode.go:122-136 | a list is its tag, its 4-byte count, its elements' bytes, then the nil terminator |
| BertRoundTrip.TupleElemsRun | decode.go:86-99 | over terms laid end to end, none `bert`, the tuple loop appends them all and moves past them |
| BertRoundTrip.ListElemsRun | decode.go:135-141 | over terms laid end to end, the list loop appends them all and moves past them |
| BertRoundTrip.ReadTupleElemsAll | decode.go:85-101 | the elements of a clean tuple read back as their decoded forms and end where the tuple ends |
| BertRoundTrip.ReadListElemsAll | decode.go:133-145 | the items of a clean list read back as their decoded forms, and the terminator is consumed |
| BertRoundTrip.DecodeInvertsEncode | decode.go:242-258 | `Decode(Encode(v))` is `v`'s decoded form and consumes the whole encoding, with no error on either side |
| BertRoundTrip.IntRoundTrip | encode.go:36-63 | an integer round-trips exactly when it is in the int32 range; a wider one is refused as `ErrUnknownType` |
| BertRoundTrip.BitstringRoundTrip | encode.go:169-174 | a fractional bit count comes back as `bits % 8` with a fitted buffer, so only 1..7 bits survive; a byte-aligned one encodes exactly as a binary |
| BertRoundTrip.SmallBitsFit | encode.go:102-112 | fewer than eight bits keep only the first byte of the buffer, or a zero byte |
| BertRoundTrip.AlignedBitsAreBinary | encode.go:172-173 | a whole number of bytes is written as the binary of its first `bits / 8` bytes |
| BertRoundTrip.TupleAndListDecodeAlike | decode.go:79-146 | a tuple and a list of the same elements decode to the same sequence |
| BertRoundTrip.BertTupleCollapses | decode.go:92-96 | a `bert` atom in a tuple drops the elements before it; the result is the collapsed term after it, and decoding ends where that term's encoding ends, so what follows is never read |
| BertRoundTrip.NilElementBreaksTuple | decode.go:104-111 | `{nil, 1}` encodes, but the decoder's nil swallows the next tag and the tuple fails with `ErrUnknownType` |
| BertRoundTrip.NilElementBreaksList | decode.go:143 | `[nil]` encodes, but the nil swallows the terminator and the terminator read panics |
| BertRoundTrip.TruncatedBinaryDecodes | decode.go:154 | a binary or atom cut short decodes without error to the bytes present |
| BertRoundTrip.FrameRoundTrip | decode.go:286-297 | a response frame read as a request frame hands the decoder exactly the encoded term, then binds its decoded form, for encodings below 2^31 bytes |
| BertRoundTrip.LongFramePanics | decode.go:289-294 | an encoding of 2^31 bytes or more, but below 2^32, gets a length prefix that `read4` takes as negative, and reading the frame back panics |
| BertRoundTrip.FrameCarries | decode.go:289-294 | a frame whose prefix is the length of the rest decodes exactly the rest |
| BertRoundTrip.RequestFrameRoundTrip | decode.go:262-277 | `{Kind, Module, Function, Args}` written by the encoder comes back as that request, with decoded arguments |
| BertRoundTrip.EnvelopeBinds | decode.go:268-273 | a four-element sequence of three atoms and a sequence binds field by field |
| BertRoundTrip.UnmarshalExamples | decode.go:262-277 | bad magic, a bignum, an integer and an errored tuple panic; an errored list and an empty string give the zero request; a one-atom tuple fills `Kind` only |
| BertRoundTrip.UnmarshalListError | decode.go:136-139 | a list whose element fails yields its nil slice, which binds to the zero request without error |
| BertRoundTrip.UnmarshalNestedListError | decode.go:88-91 | the same list inside a tuple becomes a nil term, and binding panics |
| BertRoundTrip.ListErrorBinds | decode.go:127-146 | for every input, a top-level list that fails to decode, in particular when its first element does, binds its nil slice and gives the zero request |
| BertRoundTrip.TupleErrorPanics | decode.go:85-91 | for every input, a top-level tuple whose first element fails to decode returns a nil term, and binding it panics |
| BertRoundTrip.EncodeFixtures | encode_test.go:11-98 | the test vectors for integers, bignums, atoms, tuples, nil, strings, binaries, bitstrings and lists are what the encoder writes |
| BertRoundTrip.FixtureResponse | encode_test.go:107-116 | `MarshalResponse({reply, 42})` is the 13-byte length, then the encoding |
| BertRoundTrip.EncodeWrote | encode.go:201-205 | an unfolding of `Encode` for a value written completely: the version marker, then its bytes, with no error |
| BertRoundTrip.ResponseFrame | encode.go:214-221 | an unfolding of `MarshalResponse` for a complete encoding: its length, then the encoding |
| BertRoundTrip.PartialOutputOnError | encode.go:122-136 | an unsupported element leaves the bytes already written; a tuple stops there, and a list still gets its terminator |
| BertRoundTrip.PartialElements | encode.go:86-91 | the element loop stops at the unsupported element with `ErrUnknownType` |

## Left out

- Float formatting (`fmt.Sprintf("%.20e", float32(f))`) and parsing (`strconv.ParseFloat`) are not modelled. A float value is its formatted text: at most 31 bytes, with no zero byte. The float64-to-float32 conversion is not modelled either.
- BertDecode.ReadFloat: never fails. It returns the text that would go to `ParseFloat`, not the number. When parsing fails, Go returns an error with `float32(0)`, and a list around it hands back its nil slice; the model does neither.
- Reflection in `writeTag` is replaced by the already classified `Value`. This covers:
  - every signed and unsigned integer kind and `big.Int` (as `Int`);
  - one level of pointer (`reflect.Indirect`) and interfaces;
  - `[]byte` against other slices;
  - arrays and `List`.

  Bool, map, struct, channel and function values, and a pointer to a non-nil pointer, are all `Unsupported`. A nil pointer at either level encodes as `Nil`.
- The `io.Writer` and `io.Reader` plumbing is not modelled. Encoding produces the byte sequence the writer receives. Decoding works on an in-memory input, where `ioutil.ReadAll` never fails. The I/O error returns of `read1`, `read2`, `read4` and `UnmarshalRequest` (decode.go:19-21, 290-292) are therefore not modelled.
- Slice capacity: `b.Bytes[0:b.Bits/8]` (encode.go:173) may reach past the length into spare capacity. The model panics whenever the buffer is shorter than `bits / 8`.
- `nil` and empty slices are not distinguished. A `Request` whose `Arguments` is nil equals one whose `Arguments` is empty.
- `ErrUintType` (decode.go:15) is declared but never used.
- The model follows the code where it departs from the format's usual description:
  - A truncated fixed-width read panics; it does not fail with an "unexpected end" error.
  - A truncated length-prefixed payload is returned short, without error.
  - The list terminator byte is consumed without being checked.
  - A decode error is discarded by `UnmarshalFrom`. The call then panics, with one exception: when the failing list is the top-level term, or is reached only through `bert` wrappers, its nil slice is bound and the zero request is returned (`ListErrorBinds`). A tuple around the list turns the error's term into nil, and binding it panics (`TupleErrorPanics`).
  - Arity and field types are checked only by reflection. A fifth element, or a term of the wrong type, panics. Fewer than four elements leave the remaining fields at their zero values.
- Frames of 2^32 bytes or more: `MarshalResponse` writes their length modulo 2^32, and what reading such a frame back gives is not stated. An encoding from 2^31 up to 2^32 bytes panics on the way back (`LongFramePanics`), so the frame round trip is stated only below 2^31.

=== FILE: bert_decode.dfy ===
/** The decoder: a recursive-descent parser over an in-memory input, keyed
    on one tag byte, and the BURP request reader that binds the decoded
    term to a `Request` by position.

    Every reader takes the whole input and the position to read from, and
    gives back the value and the position after it. The Go readers never see
    an I/O error on an in-memory buffer; what they can do instead is panic
    (indexing a short read, a negative `make`, a reflective assignment that
    does not fit), and that is modelled as `ParsePanic` / `Panicked`. */
module BertDecode {
  import opened BertTypes

  /** A reader's result. Go returns a value next to every error: `residue`
      is that value, `None` when it is a nil interface. Only readList hands
      back something else, its nil []Term, which reflection treats as an
      empty sequence. */
  datatype Parse<T> = Parsed(value: T, next: nat) | ParseError(error: Error, residue: Option<T>) | ParsePanic

  /** The values readList's nil slice and a nil interface can stand for. */
  predicate ErrorResidue(r: Parse<Term>)
  {
    r.ParseError? ==> r.residue == None || r.residue == Some(Term.Seq([]))
  }

  /** The tags the dispatcher has a reader for. */
  const DecodableTags: set<uint8> := {SmallIntTag, IntTag, FloatTag, AtomTag, SmallTupleTag,
                                      NilTag, StringTag, ListTag, BinTag, BitTag}

  // ---------------------------------------------------------------------
  // Primitive readers

  /** read1: one unsigned byte; at the end of input the empty read is
      indexed and Go panics. */
  function Read1(s: bytes, pos: nat): (r: Parse<uint8>)
    requires pos <= |s|
    ensures r.Parsed? <==> pos < |s|
    ensures r.Parsed? ==> r.value == s[pos] && r.next == pos + 1
    ensures !r.ParseError?
  {
    if pos < |s| then Parsed(s[pos], pos + 1) else ParsePanic
  }

  /** read2: a big-endian unsigned 16-bit value; fewer than two bytes left
      makes binary.BigEndian panic. */
  function Read2(s: bytes, pos: nat): (r: Parse<uint16>)
    requires pos <= |s|
    ensures r.Parsed? <==> pos + 2 <= |s|
    ensures r.Parsed? ==> r.next == pos + 2 && r.value == Unsigned(s[pos..pos + 2])
    ensures !r.ParseError?
  {
    if pos + 2 <= |s| then
      Unsigned2(s[pos..pos + 2]);
      Parsed(Unsigned(s[pos..pos + 2]), pos + 2)
    else ParsePanic
  }

  /** read4: four big-endian bytes read as a SIGNED 32-bit value, since the
      unsigned value is converted through int32. */
  function Read4(s: bytes, pos: nat): (r: Parse<int>)
    requires pos <= |s|
    ensures r.Parsed? <==> pos + 4 <= |s|
    ensures r.Parsed? ==>
              && r.next == pos + 4
              && r.value == Int32At(s, pos)
    ensures !r.ParseError?
  {
    if pos + 4 <= |s| then
      Parsed(Int32At(s, pos), pos + 4)
    else ParsePanic
  }

  /** ioutil.ReadAll(io.LimitReader(r, n)): up to `n` bytes, fewer when the
      input ends first, none at all when `n` is not positive. Never fails. */
  function ReadUpTo(s: bytes, pos: nat, n: int): (r: bytes)
    requires pos <= |s|
    ensures |r| == (if n <= 0 then 0 else if n <= |s| - pos then n else |s| - pos)
    ensures r == s[pos..pos + |r|]
  {
    if n <= 0 then [] else if n <= |s| - pos then s[pos..pos + n] else s[pos..]
  }

  // ---------------------------------------------------------------------
  // Leaf readers (the position is just after the tag)

  /** readString, and readAtom through it: a two-byte length, then up to that
      many bytes; a short payload is returned as it is, without an error. */
  function ReadShortText(s: bytes, pos: nat): (r: Parse<bytes>)
    requires pos <= |s|
    ensures r.Parsed? <==> pos + 2 <= |s|
    ensures r.Parsed? ==>
              && r.next == pos + 2 + |r.value| <= |s|
              && |r.value| <= Unsigned(s[pos..pos + 2])
              && r.value == s[pos + 2..r.next]
              && (|r.value| < Unsigned(s[pos..pos + 2]) ==> r.next == |s|)
    ensures !r.ParseError?
  {
    match Read2(s, pos)
    case Parsed(size, p) =>
      var text := ReadUpTo(s, p, size);
      Parsed(text, p + |text|)
    case _ => ParsePanic
  }

  /** readBin: a four-byte signed length, then up to that many bytes. */
  function ReadBin(s: bytes, pos: nat): (r: Parse<bytes>)
    requires pos <= |s|
    ensures r.Parsed? <==> pos + 4 <= |s|
    ensures r.Parsed? ==>
              && r.next == pos + 4 + |r.value| <= |s|
              && r.value == s[pos + 4..r.next]
              && (Int32At(s, pos) <= 0 ==> r.value == [])
              && (0 <= Int32At(s, pos) <= |s| - pos - 4 ==> |r.value| == Int32At(s, pos))
              && (Int32At(s, pos) > |s| - pos - 4 ==> r.next == |s|)
    ensures !r.ParseError?
  {
    match Read4(s, pos)
    case Parsed(size, p) =>
      var data := ReadUpTo(s, p, size);
      Parsed(data, p + |data|)
    case _ => ParsePanic
  }

  /** readBit: a four-byte signed byte count, the trailing-bit byte, then up
      to that many bytes; the trailing-bit byte is stored as `bits`. */
  function ReadBit(s: bytes, pos: nat): (r: Parse<Term>)
    requires pos <= |s|
    ensures r.Parsed? <==> pos + 5 <= |s|
    ensures r.Parsed? ==>
              && r.value.Bits?
              && r.value.bits == s[pos + 4]
              && r.next == pos + 5 + |r.value.buffer| <= |s|
              && r.value.buffer == s[pos + 5..r.next]
              && (Int32At(s, pos) <= 0 ==> r.value.buffer == [])
              && (0 <= Int32At(s, pos) <= |s| - pos - 5 ==> |r.value.buffer| == Int32At(s, pos))
              && (Int32At(s, pos) > |s| - pos - 5 ==> r.next == |s|)
    ensures !r.ParseError?
  {
    match Read4(s, pos)
    case Parsed(size, p) =>
      (match Read1(s, p)
       case Parsed(bits, q) =>
         var data := ReadUpTo(s, q, size);
         Parsed(Term.Bits(data, bits), q + |data|)
       case _ => ParsePanic)
    case _ => ParsePanic
  }

  /** The bytes before the first zero byte (all of them when there is none). */
  function UpToZero(bs: bytes): (r: bytes)
    ensures |r| <= |bs| && r == bs[..|r|]
    ensures forall i | 0 <= i < |r| :: r[i] != 0
    ensures |r| < |bs| ==> bs[|r|] == 0
  {
    if bs == [] || bs[0] == 0 then [] else [bs[0]] + UpToZero(bs[1..])
  }

  /** readFloat, up to the parse: at most 31 bytes are read and the text
      before the first zero byte is what the float parser receives. */
  function ReadFloat(s: bytes, pos: nat): (r: Parse<Term>)
    requires pos <= |s|
    ensures r.Parsed? && r.value.Float?
    ensures r.next == pos + (if |s| - pos < 31 then |s| - pos else 31)
    ensures r.value.text == UpToZero(s[pos..r.next])
  {
    var payload := ReadUpTo(s, pos, 31);
    Parsed(Term.Float(UpToZero(payload)), pos + |payload|)
  }

  /** readNil: an empty sequence, and one more byte is consumed when there
      is one. */
  function ReadNil(s: bytes, pos: nat): (r: Parse<Term>)
    requires pos <= |s|
    ensures r.Parsed? && r.value == Term.Seq([])
    ensures r.next == if pos < |s| then pos + 1 else pos
  {
    var skipped := ReadUpTo(s, pos, 1);
    Parsed(Term.Seq([]), pos + |skipped|)
  }

  // ---------------------------------------------------------------------
  // The recursive dispatcher

  /** readComplex's collapse: inside a `{bert, X}` wrapper the atoms nil,
      true and false stand for Go's nil, true and false. */
  function Collapse(t: Term): (r: Term)
    ensures t.Atom? && t.name == NilAtom ==> r == Term.NilVal
    ensures t.Atom? && t.name == TrueAtom ==> r == Term.Bool(true)
    ensures t.Atom? && t.name == FalseAtom ==> r == Term.Bool(false)
    ensures !(t.Atom? && t.name in {NilAtom, TrueAtom, FalseAtom}) ==> r == t
  {
    match t
    case Atom(name) =>
      if name == NilAtom then Term.NilVal
      else if name == TrueAtom then Term.Bool(true)
      else if name == FalseAtom then Term.Bool(false)
      else t
    case _ => t
  }

  /** readTag: one tag byte, then the reader it selects. */
  function ReadTag(s: bytes, pos: nat): (r: Parse<Term>)
    requires pos <= |s|
    ensures r.Parsed? ==> pos < r.next <= |s|
    ensures r.ParseError? ==> r.error == UnknownType && ErrorResidue(r)
    ensures pos == |s| ==> r == ParsePanic
    ensures pos < |s| && s[pos] !in DecodableTags ==> r == ParseError(UnknownType, None)
    decreases |s| - pos, 1
  {
    match Read1(s, pos)
    case Parsed(tag, p) => ReadTagged(s, tag, p)
    case _ => ParsePanic
  }

  /** The switch of readTag on a tag byte already read, with `p` just past
      it. The bignum tags, the large tuple tag and every byte outside the
      switch fail with `ErrUnknownType`. */
  function ReadTagged(s: bytes, tag: uint8, p: nat): (r: Parse<Term>)
    requires 0 < p <= |s|
    ensures r.Parsed? ==> p <= r.next <= |s|
    ensures r.ParseError? ==> r.error == UnknownType && ErrorResidue(r)
    ensures tag !in DecodableTags ==> r == ParseError(UnknownType, None)
    decreases |s| - p + 1, 0
  {
    if tag == SmallIntTag then
      (match Read1(s, p)
       case Parsed(x, q) => Parsed(Term.Int(x), q)
       case _ => ParsePanic)
    else if tag == IntTag then
      (match Read4(s, p)
       case Parsed(x, q) => Parsed(Term.Int(x), q)
       case _ => ParsePanic)
    else if tag == SmallBignumTag || tag == LargeBignumTag then ParseError(UnknownType, None)
    else if tag == FloatTag then ReadFloat(s, p)
    else if tag == AtomTag then
      (match ReadShortText(s, p)
       case Parsed(name, q) => Parsed(Term.Atom(name), q)
       case _ => ParsePanic)
    else if tag == SmallTupleTag then ReadSmallTuple(s, p)
    else if tag == LargeTupleTag then ParseError(UnknownType, None)
    else if tag == NilTag then ReadNil(s, p)
    else if tag == StringTag then
      (match ReadShortText(s, p)
       case Parsed(chars, q) => Parsed(Term.Str(chars), q)
       case _ => ParsePanic)
    else if tag == ListTag then ReadList(s, p)
    else if tag == BinTag then
      (match ReadBin(s, p)
       case Parsed(data, q) => Parsed(Term.Bin(data), q)
       case _ => ParsePanic)
    else if tag == BitTag then ReadBit(s, p)
    else ParseError(UnknownType, None)
  }

  /** readSmallTuple: a one-byte arity, then the elements. */
  function ReadSmallTuple(s: bytes, pos: nat): (r: Parse<Term>)
    requires pos <= |s|
    ensures r.Parsed? ==> pos < r.next <= |s|
    ensures pos == |s| ==> r == ParsePanic
    ensures r.ParseError? ==> r.error == UnknownType && ErrorResidue(r)
    ensures pos < |s| && 0 < s[pos] && ReadTag(s, pos + 1).ParseError? ==> r == ParseError(UnknownType, None)
    ensures pos < |s| && 0 < s[pos] && ReadTag(s, pos + 1).ParsePanic? ==> r == ParsePanic
    decreases |s| - pos, 2
  {
    match Read1(s, pos)
    case Parsed(arity, p) => ReadTupleElems(s, p, arity, [])
    case _ => ParsePanic
  }

  /** The element loop of readSmallTuple: `n` more elements after the ones
      in `acc`. An element that is the atom `bert` abandons the tuple: the
      result is the collapsed term that follows it. */
  function ReadTupleElems(s: bytes, pos: nat, n: nat, acc: seq<Term>): (r: Parse<Term>)
    requires pos <= |s|
    ensures r.Parsed? ==> pos <= r.next <= |s|
    ensures n == 0 ==> r == Parsed(Term.Seq(acc), pos)
    ensures r.ParseError? ==> r.error == UnknownType && ErrorResidue(r)
    ensures 0 < n && ReadTag(s, pos).ParseError? ==> r == ParseError(UnknownType, None)
    ensures 0 < n && ReadTag(s, pos).ParsePanic? ==> r == ParsePanic
    decreases |s| - pos, 2, n
  {
    if n == 0 then Parsed(Term.Seq(acc), pos)
    else
      match ReadTag(s, pos)
      case Parsed(t, p) =>
        if t == Term.Atom(BertAtom) then ReadComplex(s, p)
        else ReadTupleElems(s, p, n - 1, acc + [t])
      case ParseError(e, _) => ParseError(e, None)
      case ParsePanic => ParsePanic
  }

  /** readComplex: the term after the `bert` atom, collapsed. What a
      `bert`-wrapped tuple decodes to is stated by `BertTupleCollapses`. */
  function ReadComplex(s: bytes, pos: nat): (r: Parse<Term>)
    requires pos <= |s|
    ensures r.Parsed? ==> pos < r.next <= |s|
    ensures r.Parsed? ==> ReadTag(s, pos).Parsed? && r.value == Collapse(ReadTag(s, pos).value)
    ensures r.ParseError? ==> r == ReadTag(s, pos)
    ensures r.ParseError? ==> r.error == UnknownType && ErrorResidue(r)
    decreases |s| - pos, 2
  {
    match ReadTag(s, pos)
    case Parsed(t, p) => Parsed(Collapse(t), p)
    case ParseError(e, residue) => ParseError(e, residue)
    case ParsePanic => ParsePanic
  }

  /** readList: a four-byte signed count (a negative one makes `make` panic),
      the elements, then one byte that is consumed and not checked. */
  function ReadList(s: bytes, pos: nat): (r: Parse<Term>)
    requires pos <= |s|
    ensures r.Parsed? ==> pos < r.next <= |s|
    ensures r.Parsed? ==> pos + 4 <= |s| && r.value.Seq? && |r.value.elems| == Int32At(s, pos)
    ensures pos + 4 > |s| ==> r == ParsePanic
    ensures pos + 4 <= |s| && Int32At(s, pos) < 0 ==> r == ParsePanic
    ensures r.ParseError? ==> r == ParseError(UnknownType, Some(Term.Seq([])))
    ensures pos + 4 <= |s| && Int32At(s, pos) > 0 && ReadTag(s, pos + 4).ParseError? ==>
              r == ParseError(UnknownType, Some(Term.Seq([])))
    ensures pos + 4 <= |s| && Int32At(s, pos) > 0 && ReadTag(s, pos + 4).ParsePanic? ==> r == ParsePanic
    decreases |s| - pos, 2
  {
    match Read4(s, pos)
    case Parsed(count, p) =>
      if count < 0 then ParsePanic else ReadListElems(s, p, count, [])
    case _ => ParsePanic
  }

  /** The element loop of readList, followed by the terminator read. */
  function ReadListElems(s: bytes, pos: nat, n: nat, acc: seq<Term>): (r: Parse<Term>)
    requires pos <= |s|
    ensures r.Parsed? ==> pos < r.next <= |s|
    ensures r.Parsed? ==> r.value.Seq? && |r.value.elems| == |acc| + n
    ensures r.Parsed? ==> r.value.elems[..|acc|] == acc
    ensures r.ParseError? ==> r == ParseError(UnknownType, Some(Term.Seq([])))
    ensures n == 0 ==> r == if pos < |s| then Parsed(Term.Seq(acc), pos + 1) else ParsePanic
    ensures 0 < n && r.Parsed? ==>
              ReadTag(s, pos).Parsed? && r.value.elems[|acc|] == ReadTag(s, pos).value
    ensures 0 < n && !ReadTag(s, pos).Parsed? ==> !r.Parsed?
    ensures 0 < n && ReadTag(s, pos).ParseError? ==> r == ParseError(UnknownType, Some(Term.Seq([])))
    ensures 0 < n && ReadTag(s, pos).ParsePanic? ==> r == ParsePanic
    decreases |s| - pos, 2, n
  {
    if n == 0 then
      match Read1(s, pos)
      case Parsed(_, p) => Parsed(Term.Seq(acc), p)
      case _ => ParsePanic
    else
      match ReadTag(s, pos)
      case Parsed(t, p) => ReadListElems(s, p, n - 1, acc + [t])
      case ParseError(e, _) => ParseError(e, Some(Term.Seq([])))
      case ParsePanic => ParsePanic
  }

  /** DecodeFrom / Decode: the version marker, then one term. Bytes after the
      term are left unread. */
  function Decode(data: bytes): (r: Parse<Term>)
    ensures data == [] ==> r == ParsePanic
    ensures data != [] && data[0] != VersionTag ==> r == ParseError(BadMagic, None)
    ensures r.ParseError? ==> data != [] && (r.error == BadMagic <==> data[0] != VersionTag)
    ensures ErrorResidue(r)
    ensures r.Parsed? ==> data[0] == VersionTag && 1 < r.next <= |data|
  {
    match Read1(data, 0)
    case Parsed(version, p) =>
      if version != VersionTag then ParseError(BadMagic, None) else ReadTag(data, p)
    case _ => ParsePanic
  }

  // ---------------------------------------------------------------------
  // Binding a decoded term to a Request (UnmarshalFrom, UnmarshalRequest)

  /** A request field read back as the term that was assigned to it. */
  function Field(req: Request, i: nat): Term
    requires i < 4
  {
    if i == 0 then Term.Atom(req.Kind)
    else if i == 1 then Term.Atom(req.Module)
    else if i == 2 then Term.Atom(req.Function)
    else Term.Seq(req.Arguments)
  }

  /** Whether reflect's Set accepts `t` for field `i`: the first three
      fields are of type Atom, the fourth is []Term. */
  predicate Assignable(i: nat, t: Term)
  {
    i < 4 && (if i < 3 then t.Atom? else t.Seq?)
  }

  /** Field `i` of `req` replaced by the payload of an assignable term. */
  function SetField(req: Request, i: nat, t: Term): (r: Request)
    requires Assignable(i, t)
    ensures Field(r, i) == t
    ensures forall j | 0 <= j < 4 && j != i :: Field(r, j) == Field(req, j)
  {
    if i == 0 then req.(Kind := t.name)
    else if i == 1 then req.(Module := t.name)
    else if i == 2 then req.(Function := t.name)
    else req.(Arguments := t.elems)
  }

  /** The binding loop from element `i` on: element j goes to field j; the
      fifth element, or one of the wrong type, panics. */
  function BindFrom(req: Request, elems: seq<Term>, i: nat): (r: Outcome<Request>)
    requires i <= |elems| && i <= 4
    ensures r.Returned? <==> |elems| <= 4 && forall j | i <= j < |elems| :: Assignable(j, elems[j])
    ensures r.Returned? ==>
              forall j | 0 <= j < 4 :: Field(r.value, j) == if i <= j < |elems| then elems[j] else Field(req, j)
    decreases |elems| - i
  {
    if i == |elems| then Returned(req)
    else if Assignable(i, elems[i]) then BindFrom(SetField(req, i, elems[i]), elems, i + 1)
    else Panicked
  }

  /** Which decoded terms the reflective binder survives: a sequence of at
      most four elements of the field types, or an empty string, atom or
      binary (whose length is 0, so the loop does not run). Anything else
      panics on reflect's Len, Elem, Field or Set. */
  predicate Bindable(t: Term)
  {
    match t
    case Seq(elems) => |elems| <= 4 && forall j | 0 <= j < |elems| :: Assignable(j, elems[j])
    case Atom(name) => name == []
    case Str(chars) => chars == []
    case Bin(data) => data == []
    case _ => false
  }

  /** UnmarshalFrom's struct case, for a Request: element i of the decoded
      sequence is stored in field i; fields past the end keep their zero
      values. */
  function BindRequest(t: Term): (r: Outcome<Request>)
    ensures r.Returned? <==> Bindable(t)
    ensures r.Returned? ==>
              forall j | 0 <= j < 4 ::
                Field(r.value, j) == if t.Seq? && j < |t.elems| then t.elems[j] else Field(ZeroRequest, j)
  {
    match t
    case Seq(elems) => BindFrom(ZeroRequest, elems, 0)
    case Atom(name) => if name == [] then Returned(ZeroRequest) else Panicked
    case Str(chars) => if chars == [] then Returned(ZeroRequest) else Panicked
    case Bin(data) => if data == [] then Returned(ZeroRequest) else Panicked
    case _ => Panicked
  }

  /** UnmarshalFrom for a Request: the decode error is discarded and the
      term that came with it is bound. A nil interface makes the binder
      panic; readList's nil slice binds like an empty sequence, leaving the
      request at its zero value. */
  function Unmarshal(data: bytes): (r: Outcome<Request>)
    ensures Decode(data).Parsed? ==> (r.Returned? <==> Bindable(Decode(data).value))
    ensures Decode(data).ParseError? ==>
              (r.Returned? <==> Decode(data).residue.Some?) &&
              (r.Returned? ==> r.value == ZeroRequest)
    ensures Decode(data).ParsePanic? ==> r == Panicked
  {
    match Decode(data)
    case Parsed(t, _) => BindRequest(t)
    case ParseError(_, Some(t)) => BindRequest(t)
    case _ => Panicked
  }

  /** The bytes an io.LimitReader of the length prefix lets through. */
  function FramePayload(s: bytes): (r: bytes)
    requires |s| >= 4
    ensures |r| <= |s| - 4 && r == s[4..4 + |r|]
    ensures 0 <= Int32At(s, 0) <= |s| - 4 ==> |r| == Int32At(s, 0)
    ensures Int32At(s, 0) <= 0 ==> r == []
    ensures Int32At(s, 0) > |s| - 4 ==> r == s[4..]
  {
    ReadUpTo(s, 4, Int32At(s, 0))
  }

  /** UnmarshalRequest: a four-byte length, then a term decoded from that
      many bytes and bound to a Request. The error it returns is always nil.
      The contract only hands the payload on; what a response frame comes
      back as is stated by `FrameCarries`, `FrameRoundTrip` and
      `RequestFrameRoundTrip`. */
  function UnmarshalRequest(s: bytes): (r: Outcome<Request>)
    ensures |s| < 4 ==> r == Panicked
    ensures |s| >= 4 && Int32At(s, 0) <= 0 ==> r == Panicked
    ensures |s| >= 4 ==> r == Unmarshal(FramePayload(s))
  {
    match Read4(s, 0)
    case Parsed(_, _) => Unmarshal(FramePayload(s))
    case _ => Panicked
  }
}

=== FILE: bert_encode.dfy ===
/** The encoder: classifies a value and appends tag-prefixed, big-endian
    bytes; the top-level call prefixes the version marker, and the BURP
    response prefixes a four-byte length.

    A writer call is modelled as the bytes it appends plus a status: the
    write completed, it stopped with `ErrUnknownType` (the bytes written so
    far are kept, as Go's writer keeps them), or the Go code panicked. */
module BertEncode {
  import opened BertTypes

  const MinInt32 := -0x8000_0000
  const MaxInt32 := 0x7fff_ffff

  datatype Status = Wrote | WriteError(error: Error) | WritePanic

  /** The bytes appended by a writer call, and how the call ended. */
  datatype Emit = Emit(bytes: bytes, status: Status)

  /** The result of `Encode`: the buffer and the error returned beside it. */
  datatype Encoding = Encoding(bytes: bytes, error: Option<Error>)

  // ---------------------------------------------------------------------
  // Primitive writers (write1 is a one-byte sequence)

  /** write2: a 16-bit value in big-endian order. */
  function Put2(x: uint16): (r: bytes)
    ensures |r| == 2 && Unsigned(r) == x
  {
    var r := [x / 0x100, x % 0x100];
    Unsigned2(r);
    r
  }

  /** write4: a 32-bit value in big-endian order. */
  function Put4(x: uint32): (r: bytes)
    ensures |r| == 4 && Unsigned(r) == x
  {
    Put4Digits(x);
    var r := [x / 0x100_0000, x / 0x1_0000 % 0x100, x / 0x100 % 0x100, x % 0x100];
    Unsigned4(r);
    r
  }

  /** The four shifted bytes of a 32-bit value recombine to the value. */
  lemma Put4Digits(x: uint32)
    ensures x / 0x100_0000 < 0x100
    ensures x == x / 0x100_0000 * 0x100_0000 + x / 0x1_0000 % 0x100 * 0x1_0000
               + x / 0x100 % 0x100 * 0x100 + x % 0x100
  {
    var q0 := x / 0x100;
    var q1 := q0 / 0x100;
    var q2 := q1 / 0x100;
    assert x == q0 * 0x100 + x % 0x100;
    assert q0 == q1 * 0x100 + q0 % 0x100;
    assert q1 == q2 * 0x100 + q1 % 0x100;
    assert x / 0x1_0000 == q1;
    assert x / 0x100_0000 == q2;
  }

  /** `n` zero bytes, as Go's `make([]byte, n)`. */
  function Zeros(n: nat): (r: bytes)
    ensures |r| == n && forall i | 0 <= i < n :: r[i] == 0
  {
    seq(n, _ => 0)
  }

  function Reverse(s: bytes): (r: bytes)
    ensures |r| == |s| && forall i | 0 <= i < |s| :: r[i] == s[|s| - 1 - i]
  {
    if s == [] then [] else Reverse(s[1..]) + [s[0]]
  }

  // ---------------------------------------------------------------------
  // Numbers

  /** big.Int.Bytes: the minimal big-endian magnitude (empty for zero). */
  function Magnitude(m: nat): (r: bytes)
    ensures Unsigned(r) == m
    ensures r == [] <==> m == 0
    ensures r != [] ==> r[0] != 0
    decreases m
  {
    if m == 0 then []
    else
      var r := Magnitude(m / 0x100) + [m % 0x100];
      assert r[..|r| - 1] == Magnitude(m / 0x100);
      r
  }

  /** Reading a byte sequence backwards in little-endian order gives the
      big-endian value of the original. */
  lemma {:induction false} LittleEndianOfReverse(s: bytes)
    ensures LittleEndian(Reverse(s)) == Unsigned(s)
    decreases |s|
  {
    if s != [] {
      var init := s[..|s| - 1];
      var rev := Reverse(s);
      assert rev[0] == s[|s| - 1];
      assert rev[1..] == Reverse(init);
      LittleEndianOfReverse(init);
    }
  }

  function Abs(n: int): nat
  {
    if n < 0 then -n else n
  }

  /** Two's complement: an int32 stored modulo 2^32 reads back as itself. */
  lemma Int32Wraps(n: int)
    requires MinInt32 <= n <= MaxInt32
    ensures AsInt32(n % 0x1_0000_0000) == n
  {
    if n < 0 {
      assert n % 0x1_0000_0000 == n + 0x1_0000_0000;
    } else {
      assert n % 0x1_0000_0000 == n;
    }
  }

  /** writeNumber: a small integer when 0 <= n < 256, a 32-bit integer when n
      fits int32, otherwise a small bignum whose payload is the byte count
      (truncated to a byte), the sign, and the magnitude in little-endian
      order. */
  function WriteNumber(n: int): (r: bytes)
    ensures 0 <= n < 0x100 ==> r == [SmallIntTag, n]
    ensures (n < 0 || 0x100 <= n) && MinInt32 <= n <= MaxInt32 ==>
              |r| == 5 && r[0] == IntTag && Unsigned(r[1..]) < 0x1_0000_0000
              && AsInt32(Unsigned(r[1..])) == n
    ensures (n < MinInt32 || MaxInt32 < n) ==>
              && |r| > 3 && r[0] == SmallBignumTag
              && r[1] == (|r| - 3) % 0x100
              && r[2] == (if n >= 0 then 0 else 1)
              && LittleEndian(r[3..]) == Abs(n)
              && r[|r| - 1] != 0
  {
    if 0 <= n < 0x100 then
      [SmallIntTag, n]
    else if MinInt32 <= n <= MaxInt32 then
      var r := [IntTag] + Put4(n % 0x1_0000_0000);
      assert r[1..] == Put4(n % 0x1_0000_0000);
      Int32Wraps(n);
      r
    else
      var digits := Reverse(Magnitude(Abs(n)));
      LittleEndianOfReverse(Magnitude(Abs(n)));
      var r := [SmallBignumTag, |digits| % 0x100, if n >= 0 then 0 else 1] + digits;
      assert r[3..] == digits;
      r
  }

  // ---------------------------------------------------------------------
  // Floats, atoms, strings, binaries, bitstrings

  /** writeFloat: the formatted text zero-padded to the 31-byte payload. */
  function WriteFloat(text: FloatText): (r: bytes)
    ensures |r| == 32 && r[0] == FloatTag
    ensures r[1..1 + |text|] == text
    ensures forall i | 1 + |text| <= i < 32 :: r[i] == 0
  {
    [FloatTag] + text + Zeros(31 - |text|)
  }

  /** A tag, a two-byte length (truncated to 16 bits), then the bytes. */
  function WriteShortText(tag: uint8, a: bytes): (r: bytes)
    ensures |r| == 3 + |a| && r[0] == tag
    ensures Unsigned(r[1..3]) == |a| % 0x1_0000
    ensures r[3..] == a
  {
    var r := [tag] + Put2(|a| % 0x1_0000) + a;
    assert r[1..3] == Put2(|a| % 0x1_0000);
    r
  }

  /** writeAtom */
  function WriteAtom(a: bytes): (r: bytes)
    ensures |r| == 3 + |a| && r[0] == AtomTag
    ensures Unsigned(r[1..3]) == |a| % 0x1_0000 && r[3..] == a
  {
    WriteShortText(AtomTag, a)
  }

  /** writeString */
  function WriteString(s: bytes): (r: bytes)
    ensures |r| == 3 + |s| && r[0] == StringTag
    ensures Unsigned(r[1..3]) == |s| % 0x1_0000 && r[3..] == s
  {
    WriteShortText(StringTag, s)
  }

  /** writeBinary: a four-byte length (truncated to 32 bits), then the bytes. */
  function WriteBinary(a: bytes): (r: bytes)
    ensures |r| == 5 + |a| && r[0] == BinTag
    ensures Unsigned(r[1..5]) == |a| % 0x1_0000_0000
    ensures r[5..] == a
  {
    var r := [BinTag] + Put4(|a| % 0x1_0000_0000) + a;
    assert r[1..5] == Put4(|a| % 0x1_0000_0000);
    r
  }

  /** The bitstring buffer brought to exactly `size` bytes: zeros are added in
      front while it is short, and only its first `size` bytes are kept. */
  function Fit(a: bytes, size: nat): (r: bytes)
    ensures |r| == size
    ensures size <= |a| ==> r == a[..size]
    ensures |a| < size ==> r[size - |a|..] == a && forall i | 0 <= i < size - |a| :: r[i] == 0
  {
    if |a| < size then Zeros(size - |a|) + a else a[..size]
  }

  /** writeBitstring: the byte count ceil(bits / 8), the trailing-bit count
      bits % 8, then the fitted buffer. */
  function WriteBitstring(a: bytes, bits: uint8): (r: bytes)
    ensures |r| >= 6 && r[0] == BitTag && |r| == 6 + Unsigned(r[1..5])
    ensures bits <= 8 * Unsigned(r[1..5]) < bits + 8
    ensures r[5] == bits % 8
    ensures r[6..] == Fit(a, Unsigned(r[1..5]))
  {
    var size := BitPayloadSize(bits);
    var r := [BitTag] + Put4(size) + [bits % 8] + Fit(a, size);
    assert r[1..5] == Put4(size);
    assert r[6..] == Fit(a, size);
    r
  }

  // ---------------------------------------------------------------------
  // Dispatch

  /** The values the encoder accepts without error or panic: nothing
      unsupported, and no byte-aligned bitstring whose buffer is shorter than
      its bit count says. */
  predicate Encodable(v: Value)
  {
    match v
    case Unsupported => false
    case Bits(buffer, bits) => bits % 8 != 0 || bits / 8 <= |buffer|
    case Tuple(elems) => forall i | 0 <= i < |elems| :: Encodable(elems[i])
    case List(items) => forall i | 0 <= i < |items| :: Encodable(items[i])
    case _ => true
  }

  /** The tag an encodable value is written under. */
  function WireTag(v: Value): uint8
    requires v != Value.Unsupported
  {
    match v
    case Int(n) =>
      if 0 <= n < 0x100 then SmallIntTag
      else if MinInt32 <= n <= MaxInt32 then IntTag
      else SmallBignumTag
    case Float(_) => FloatTag
    case Atom(_) => AtomTag
    case Str(_) => StringTag
    case Bin(_) => BinTag
    case Bits(_, bits) => if bits % 8 != 0 then BitTag else BinTag
    case Tuple(_) => SmallTupleTag
    case List(_) => ListTag
    case Nil => NilTag
  }

  /** writeTag: the bytes written for one value. */
  function Write(v: Value): (r: Emit)
    ensures r.status == Wrote <==> Encodable(v)
    ensures v.Unsupported? ==> r == Emit([], WriteError(UnknownType))
    ensures r.status.WriteError? ==> r.status == WriteError(UnknownType)
    ensures v.Tuple? ==> r.status == WriteAll(v.elems).status
    ensures v.List? ==> r.status == WriteAll(v.items).status
    ensures v.Bits? ==> (r.status == WritePanic <==> v.bits % 8 == 0 && |v.buffer| < v.bits / 8)
    ensures !v.Tuple? && !v.List? && !v.Bits? ==> r.status != WritePanic
  {
    match v
    case Int(n) => Emit(WriteNumber(n), Wrote)
    case Float(text) => Emit(WriteFloat(text), Wrote)
    case Atom(name) => Emit(WriteAtom(name), Wrote)
    case Str(chars) => Emit(WriteString(chars), Wrote)
    case Bin(data) => Emit(WriteBinary(data), Wrote)
    case Bits(buffer, bits) =>
      if bits % 8 != 0 then Emit(WriteBitstring(buffer, bits), Wrote)
      else if bits / 8 <= |buffer| then Emit(WriteBinary(buffer[..bits / 8]), Wrote)
      else Emit([], WritePanic)
    case Tuple(elems) =>
      var body := WriteAll(elems);
      Emit([SmallTupleTag, |elems| % 0x100] + body.bytes, body.status)
    case List(items) =>
      var body := WriteAll(items);
      if body.status == WritePanic then Emit([], WritePanic)
      else Emit([ListTag] + Put4(|items| % 0x1_0000_0000) + body.bytes + [NilTag], body.status)
    case Nil => Emit([NilTag], Wrote)
    case Unsupported => Emit([], WriteError(UnknownType))
  }

  /** Whatever a write that did not panic appends starts with the tag of the
      value's wire variant. */
  lemma WriteLeadsWithTag(v: Value)
    requires Write(v).status != WritePanic && v != Value.Unsupported
    ensures |Write(v).bytes| > 0 && Write(v).bytes[0] == WireTag(v)
  {
    match v
    case Int(n) =>
    case Bits(buffer, bits) =>
    case Tuple(elems) =>
    case List(items) =>
    case _ =>
  }

  /** The element loop of writeSmallTuple and writeList: the elements in
      order, stopping after the first one that does not complete. */
  function WriteAll(vs: seq<Value>): (r: Emit)
    ensures r.status == Wrote <==> forall i | 0 <= i < |vs| :: Encodable(vs[i])
    ensures r.status.WriteError? ==> r.status == WriteError(UnknownType)
  {
    if vs == [] then Emit([], Wrote)
    else
      var head := Write(vs[0]);
      if head.status != Wrote then head
      else
        var tail := WriteAll(vs[1..]);
        assert forall i | 1 <= i < |vs| :: vs[i] == vs[1..][i - 1];
        Emit(head.bytes + tail.bytes, tail.status)
  }

  /** A loop that does not complete stops at its first element that is not
      encodable: the bytes are those of the elements before it, then
      whatever that element wrote, and its status is the loop's. */
  lemma {:induction false} WriteAllStops(vs: seq<Value>) returns (k: nat)
    requires WriteAll(vs).status != Wrote
    ensures k < |vs| && !Encodable(vs[k])
    ensures forall i | 0 <= i < k :: Encodable(vs[i])
    ensures WriteAll(vs) == Emit(WriteAll(vs[..k]).bytes + Write(vs[k]).bytes, Write(vs[k]).status)
    decreases |vs|
  {
    WriteAllFirst(vs);
    if Write(vs[0]).status != Wrote {
      k := 0;
      assert vs[..0] == [];
    } else {
      var j := WriteAllStops(vs[1..]);
      k := j + 1;
      StopsLater(vs, j);
    }
  }

  /** The stop found in the tail, seen from the whole sequence. */
  lemma StopsLater(vs: seq<Value>, j: nat)
    requires vs != [] && Write(vs[0]).status == Wrote && j < |vs| - 1
    requires WriteAll(vs) == Emit(Write(vs[0]).bytes + WriteAll(vs[1..]).bytes, WriteAll(vs[1..]).status)
    requires !Encodable(vs[1..][j]) && forall i | 0 <= i < j :: Encodable(vs[1..][i])
    requires WriteAll(vs[1..])
          == Emit(WriteAll(vs[1..][..j]).bytes + Write(vs[1..][j]).bytes, Write(vs[1..][j]).status)
    ensures !Encodable(vs[j + 1])
    ensures forall i | 0 <= i < j + 1 :: Encodable(vs[i])
    ensures WriteAll(vs) == Emit(WriteAll(vs[..j + 1]).bytes + Write(vs[j + 1]).bytes, Write(vs[j + 1]).status)
  {
    assert vs[1..][j] == vs[j + 1];
    ShiftedEncodable(vs, j);
    PrefixHead(vs, j);
    AppendAssoc(Write(vs[0]).bytes, WriteAll(vs[1..][..j]).bytes, Write(vs[j + 1]).bytes);
  }

  /** Concatenation regroups. */
  lemma AppendAssoc(a: bytes, b: bytes, c: bytes)
    ensures a + (b + c) == (a + b) + c
  {
  }

  /** An encodable head in front of an encodable prefix of the tail. */
  lemma ShiftedEncodable(vs: seq<Value>, j: nat)
    requires vs != [] && Encodable(vs[0]) && j < |vs|
    requires forall i | 0 <= i < j :: Encodable(vs[1..][i])
    ensures forall i | 0 <= i < j + 1 :: Encodable(vs[i])
  {
    forall i | 1 <= i < j + 1 ensures Encodable(vs[i]) {
      assert vs[i] == vs[1..][i - 1];
    }
  }

  /** A prefix of a sequence with a completed head writes that head first. */
  lemma PrefixHead(vs: seq<Value>, j: nat)
    requires j < |vs| && Write(vs[0]).status == Wrote
    ensures WriteAll(vs[..j + 1]).bytes == Write(vs[0]).bytes + WriteAll(vs[1..][..j]).bytes
  {
    var pre := vs[..j + 1];
    assert pre[0] == vs[0] && pre[1..] == vs[1..][..j];
    WriteAllFirst(pre);
  }

  /** One turn of the element loop. */
  lemma WriteAllFirst(vs: seq<Value>)
    requires vs != []
    ensures Write(vs[0]).status != Wrote ==> WriteAll(vs) == Write(vs[0])
    ensures Write(vs[0]).status == Wrote ==>
              WriteAll(vs) == Emit(Write(vs[0]).bytes + WriteAll(vs[1..]).bytes, WriteAll(vs[1..]).status)
  {
  }

  // ---------------------------------------------------------------------
  // Top level

  /** EncodeTo / Encode / Marshal: the version marker, then one value. The
      buffer is returned even when an error is. */
  function Encode(v: Value): (r: Outcome<Encoding>)
    ensures r.Returned? <==> Write(v).status != WritePanic
    ensures r.Returned? ==> |r.value.bytes| > 0 && r.value.bytes[0] == VersionTag
    ensures r.Returned? ==> (r.value.error == None <==> Encodable(v))
    ensures r.Returned? && r.value.error != None ==> r.value.error == Some(UnknownType)
  {
    var body := Write(v);
    match body.status
    case Wrote => Returned(Encoding([VersionTag] + body.bytes, None))
    case WriteError(e) => Returned(Encoding([VersionTag] + body.bytes, Some(e)))
    case WritePanic => Panicked
  }

  /** MarshalResponse: the four-byte length of the encoded payload, then the
      payload; the encoder's error is passed on but the bytes are written
      regardless. */
  function MarshalResponse(v: Value): (r: Outcome<Encoding>)
    ensures r.Returned? <==> Encode(v).Returned?
    ensures r.Returned? ==>
              && |r.value.bytes| >= 4
              && Unsigned(r.value.bytes[..4]) == (|r.value.bytes| - 4) % 0x1_0000_0000
              && r.value.bytes[4..] == Encode(v).value.bytes
              && r.value.error == Encode(v).value.error
  {
    match Encode(v)
    case Panicked => Panicked
    case Returned(resp) =>
      var out := Put4(|resp.bytes| % 0x1_0000_0000) + resp.bytes;
      assert out[..4] == Put4(|resp.bytes| % 0x1_0000_0000);
      Returned(Encoding(out, resp.error))
  }
}

=== FILE: bert_roundtrip.dfy ===
/** How the decoder reads back what the encoder writes: the values that
    survive the round trip and the term each comes back as, the asymmetries
    of the format (bignums, bitstring bit counts, the nil tag's extra byte,
    the `bert` wrapper, tuples and lists alike), and the BURP frame. */
module BertRoundTrip {
  import opened BertTypes
  import opened BertEncode
  import opened BertDecode

  // ---------------------------------------------------------------------
  // What survives, and what it comes back as

  /** A value whose encoding the decoder reads back without loss: integers in
      int32 range (wider ones take the bignum tag, which does not decode),
      atoms and strings shorter than the 16-bit length field, binaries
      shorter than the signed 32-bit length, bitstrings that do not panic,
      tuples of at most 255 elements none of which is the `bert` atom,
      lists shorter than the signed 32-bit count, and no nil inside (its tag
      makes the decoder swallow the byte after it). */
  predicate Clean(v: Value)
  {
    match v
    case Int(n) => MinInt32 <= n <= MaxInt32
    case Float(_) => true
    case Atom(name) => |name| < 0x1_0000
    case Str(chars) => |chars| < 0x1_0000
    case Bin(data) => |data| < 0x8000_0000
    case Bits(buffer, bits) => bits % 8 != 0 || bits / 8 <= |buffer|
    case Tuple(elems) =>
      && |elems| < 0x100
      && forall i | 0 <= i < |elems| :: Clean(elems[i]) && elems[i] != Value.Atom(BertAtom)
    case List(items) => |items| < 0x8000_0000 && forall i | 0 <= i < |items| :: Clean(items[i])
    case Nil => false
    case Unsupported => false
  }

  /** At the top level a nil is fine too: nothing follows it. */
  predicate TopClean(v: Value)
  {
    v == Value.Nil || Clean(v)
  }

  /** The term a value comes back as. Tuples and lists both become a plain
      sequence, a nil becomes the empty sequence, a bitstring keeps only
      `bits % 8` and its fitted buffer, and a byte-aligned bitstring becomes
      a binary. */
  function DecodedForm(v: Value): Term
    requires TopClean(v)
  {
    match v
    case Int(n) => Term.Int(n)
    case Float(text) => Term.Float(text)
    case Atom(name) => Term.Atom(name)
    case Str(chars) => Term.Str(chars)
    case Bin(data) => Term.Bin(data)
    case Bits(buffer, bits) =>
      if bits % 8 != 0 then Term.Bits(Fit(buffer, BitPayloadSize(bits)), bits % 8)
      else Term.Bin(buffer[..bits / 8])
    case Tuple(elems) => Term.Seq(DecodedAll(elems))
    case List(items) => Term.Seq(DecodedAll(items))
    case Nil => Term.Seq([])
  }

  function DecodedAll(vs: seq<Value>): (r: seq<Term>)
    requires forall i | 0 <= i < |vs| :: Clean(vs[i])
    ensures |r| == |vs|
  {
    if vs == [] then [] else [DecodedForm(vs[0])] + DecodedAll(vs[1..])
  }

  // ---------------------------------------------------------------------
  // Helpers

  lemma {:induction false} CleanIsEncodable(v: Value)
    requires Clean(v)
    ensures Encodable(v)
    decreases v
  {
    match v
    case Tuple(elems) =>
      forall i | 0 <= i < |elems| ensures Encodable(elems[i]) {
        CleanIsEncodable(elems[i]);
      }
    case List(items) =>
      forall i | 0 <= i < |items| ensures Encodable(items[i]) {
        CleanIsEncodable(items[i]);
      }
    case _ =>
  }

  /** `x` sits in `s` at `p`, byte for byte. */
  predicate At(s: bytes, p: nat, x: bytes)
  {
    p + |x| <= |s| && forall i | 0 <= i < |x| :: s[p + i] == x[i]
  }

  /** Every input sits in itself at 0. */
  lemma AtWhole(s: bytes)
    ensures At(s, 0, s)
  {
  }

  /** A frame holding `x + y` holds `x`, then `y`. */
  lemma AtSplit(s: bytes, p: nat, x: bytes, y: bytes, q: nat)
    requires At(s, p, x + y) && q == p + |x|
    ensures At(s, p, x) && At(s, q, y)
  {
    forall i | 0 <= i < |x| ensures s[p + i] == x[i] {
      assert (x + y)[i] == x[i];
    }
    forall i | 0 <= i < |y| ensures s[p + |x| + i] == y[i] {
      assert (x + y)[|x| + i] == y[i];
    }
  }

  /** Byte `i` of a frame. */
  lemma AtByte(s: bytes, p: nat, x: bytes, i: nat)
    requires At(s, p, x) && i < |x|
    ensures p + i < |s| && s[p + i] == x[i]
  {
  }

  /** Four bytes of a frame read as a signed 32-bit count. */
  lemma AtInt32(s: bytes, p: nat, x: bytes)
    requires At(s, p, x) && |x| == 4
    ensures Unsigned(x) < 0x1_0000_0000
    ensures p + 4 <= |s| && Int32At(s, p) == AsInt32(Unsigned(x))
  {
    Unsigned4(x);
    AtSlice(s, p, x, 0, 4);
    assert x[0..4] == x;
  }

  /** Bytes `i` to `j` of a frame, as a slice of the input. */
  lemma AtSlice(s: bytes, p: nat, x: bytes, i: nat, j: nat)
    requires At(s, p, x) && i <= j <= |x|
    ensures s[p + i..p + j] == x[i..j]
  {
    forall k | 0 <= k < j - i ensures s[p + i..p + j][k] == x[i..j][k] {
      assert x[i + k] == s[p + i + k];
    }
  }

  /** The bytes of encodable leading elements followed by the rest. */
  lemma {:induction false} WriteAllAppend(xs: seq<Value>, ys: seq<Value>)
    requires forall i | 0 <= i < |xs| :: Encodable(xs[i])
    ensures WriteAll(xs + ys) == Emit(WriteAll(xs).bytes + WriteAll(ys).bytes, WriteAll(ys).status)
    decreases |xs|
  {
    if xs == [] {
      assert xs + ys == ys;
    } else {
      var zs := xs + ys;
      assert zs[0] == xs[0] && zs[1..] == xs[1..] + ys;
      WriteAllAppend(xs[1..], ys);
      WriteAllFirst(zs);
      WriteAllFirst(xs);
      AppendAssoc(Write(xs[0]).bytes, WriteAll(xs[1..]).bytes, WriteAll(ys).bytes);
    }
  }

  /** Zero bytes after a zero-free text do not reach the float parser. */
  lemma {:induction false} UpToZeroOfPadded(text: bytes, pad: bytes)
    requires forall i | 0 <= i < |text| :: text[i] != 0
    requires pad == [] || pad[0] == 0
    ensures UpToZero(text + pad) == text
    decreases |text|
  {
    if text == [] {
      assert text + pad == pad;
    } else {
      assert (text + pad)[0] == text[0];
      assert (text + pad)[1..] == text[1..] + pad;
      UpToZeroOfPadded(text[1..], pad);
    }
  }

  // ---------------------------------------------------------------------
  // The positional round trip

  /** The encoding of `v` sits in `s` at `pos`. */
  predicate EncodedAt(v: Value, s: bytes, pos: nat)
  {
    At(s, pos, Write(v).bytes)
  }

  // ---------------------------------------------------------------------
  // The dispatcher on each leaf tag

  lemma ReadTagAtSmallInt(s: bytes, pos: nat)
    requires pos + 2 <= |s| && s[pos] == SmallIntTag
    ensures ReadTag(s, pos) == Parsed(Term.Int(s[pos + 1]), pos + 2)
  {
    assert ReadTag(s, pos) == ReadTagged(s, SmallIntTag, pos + 1);
  }

  lemma ReadTagAtInt(s: bytes, pos: nat)
    requires pos + 5 <= |s| && s[pos] == IntTag
    ensures ReadTag(s, pos) == Parsed(Term.Int(Int32At(s, pos + 1)), pos + 5)
  {
    assert ReadTag(s, pos) == ReadTagged(s, IntTag, pos + 1);
  }

  lemma ReadTagAtFloat(s: bytes, pos: nat)
    requires pos < |s| && s[pos] == FloatTag
    ensures ReadTag(s, pos) == ReadFloat(s, pos + 1)
  {
    assert ReadTag(s, pos) == ReadTagged(s, FloatTag, pos + 1);
  }

  lemma ReadTagAtText(s: bytes, pos: nat, text: bytes, q: nat)
    requires pos < |s| && ReadShortText(s, pos + 1) == Parsed(text, q)
    ensures s[pos] == AtomTag ==> ReadTag(s, pos) == Parsed(Term.Atom(text), q)
    ensures s[pos] == StringTag ==> ReadTag(s, pos) == Parsed(Term.Str(text), q)
  {
    assert ReadTag(s, pos) == ReadTagged(s, s[pos], pos + 1);
  }

  lemma ReadTagAtBin(s: bytes, pos: nat, data: bytes, q: nat)
    requires pos < |s| && s[pos] == BinTag && ReadBin(s, pos + 1) == Parsed(data, q)
    ensures ReadTag(s, pos) == Parsed(Term.Bin(data), q)
  {
    assert ReadTag(s, pos) == ReadTagged(s, BinTag, pos + 1);
  }

  lemma ReadTagAtBit(s: bytes, pos: nat)
    requires pos < |s| && s[pos] == BitTag
    ensures ReadTag(s, pos) == ReadBit(s, pos + 1)
  {
    assert ReadTag(s, pos) == ReadTagged(s, BitTag, pos + 1);
  }

  /** A two-byte length and that many bytes read back as the bytes. */
  lemma ReadShortTextAt(s: bytes, p: nat, count: bytes, text: bytes)
    requires |count| == 2 && Unsigned(count) == |text|
    requires At(s, p, count) && At(s, p + 2, text)
    ensures ReadShortText(s, p) == Parsed(text, p + 2 + |text|)
  {
    AtSlice(s, p, count, 0, 2);
    assert count[0..2] == count;
    AtSlice(s, p + 2, text, 0, |text|);
    assert text[0..|text|] == text;
  }

  /** A four-byte count and that many bytes read back as the bytes. */
  lemma ReadBinAt(s: bytes, p: nat, count: bytes, payload: bytes)
    requires |count| == 4 && Unsigned(count) == |payload| < 0x8000_0000
    requires At(s, p, count) && At(s, p + 4, payload)
    ensures ReadBin(s, p) == Parsed(payload, p + 4 + |payload|)
  {
    AtInt32(s, p, count);
    AtSlice(s, p + 4, payload, 0, |payload|);
    assert payload[0..|payload|] == payload;
  }

  /** A four-byte count, a trailing-bit count and that many bytes read back
      as a bitstring. */
  lemma ReadBitAt(s: bytes, p: nat, count: bytes, trail: uint8, payload: bytes)
    requires |count| == 4 && Unsigned(count) == |payload| < 0x8000_0000
    requires At(s, p, count) && At(s, p + 4, [trail]) && At(s, p + 5, payload)
    ensures ReadBit(s, p) == Parsed(Term.Bits(payload, trail), p + 5 + |payload|)
  {
    AtInt32(s, p, count);
    AtByte(s, p + 4, [trail], 0);
    AtSlice(s, p + 5, payload, 0, |payload|);
    assert payload[0..|payload|] == payload;
  }

  lemma IntInverts(n: int, s: bytes, pos: nat)
    requires MinInt32 <= n <= MaxInt32 && EncodedAt(Value.Int(n), s, pos)
    ensures ReadTag(s, pos) == Parsed(Term.Int(n), pos + |Write(Value.Int(n)).bytes|)
  {
    if 0 <= n < 0x100 {
      var e: bytes := [SmallIntTag, n];
      assert Write(Value.Int(n)).bytes == e;
      AtByte(s, pos, e, 0);
      AtByte(s, pos, e, 1);
      ReadTagAtSmallInt(s, pos);
    } else {
      var count := Put4(n % 0x1_0000_0000);
      assert Write(Value.Int(n)).bytes == [IntTag] + count;
      AtSplit(s, pos, [IntTag], count, pos + 1);
      AtByte(s, pos, [IntTag], 0);
      AtInt32(s, pos + 1, count);
      assert AsInt32(n % 0x1_0000_0000) == n;
      ReadTagAtInt(s, pos);
    }
  }

  lemma FloatInverts(text: FloatText, s: bytes, pos: nat)
    requires EncodedAt(Value.Float(text), s, pos)
    ensures ReadTag(s, pos) == Parsed(Term.Float(text), pos + |Write(Value.Float(text)).bytes|)
  {
    var e := Write(Value.Float(text)).bytes;
    assert s[pos] == e[0];
    AtSlice(s, pos, e, 1, 32);
    assert e[1..32] == text + Zeros(31 - |text|);
    UpToZeroOfPadded(text, Zeros(31 - |text|));
    assert ReadFloat(s, pos + 1) == Parsed(Term.Float(text), pos + 32);
    ReadTagAtFloat(s, pos);
  }

  /** Atoms and strings share the layout; only the tag differs. */
  lemma ShortTextInverts(tag: uint8, a: bytes, s: bytes, pos: nat)
    requires |a| < 0x1_0000
    requires At(s, pos, WriteShortText(tag, a))
    ensures pos < |s| && s[pos] == tag
    ensures ReadShortText(s, pos + 1) == Parsed(a, pos + 3 + |a|)
  {
    var count := Put2(|a| % 0x1_0000);
    assert WriteShortText(tag, a) == [tag] + count + a;
    AtSplit(s, pos, [tag] + count, a, pos + 3);
    AtSplit(s, pos, [tag], count, pos + 1);
    AtByte(s, pos, [tag], 0);
    ReadShortTextAt(s, pos + 1, count, a);
  }

  lemma AtomInverts(name: bytes, s: bytes, pos: nat)
    requires |name| < 0x1_0000 && EncodedAt(Value.Atom(name), s, pos)
    ensures ReadTag(s, pos) == Parsed(Term.Atom(name), pos + |Write(Value.Atom(name)).bytes|)
  {
    assert Write(Value.Atom(name)).bytes == WriteShortText(AtomTag, name);
    ShortTextInverts(AtomTag, name, s, pos);
    ReadTagAtText(s, pos, name, pos + 3 + |name|);
  }

  lemma StrInverts(chars: bytes, s: bytes, pos: nat)
    requires |chars| < 0x1_0000 && EncodedAt(Value.Str(chars), s, pos)
    ensures ReadTag(s, pos) == Parsed(Term.Str(chars), pos + |Write(Value.Str(chars)).bytes|)
  {
    assert Write(Value.Str(chars)).bytes == WriteShortText(StringTag, chars);
    ShortTextInverts(StringTag, chars, s, pos);
    ReadTagAtText(s, pos, chars, pos + 3 + |chars|);
  }

  /** The binary payload, which a byte-aligned bitstring shares. */
  lemma BinaryInverts(data: bytes, s: bytes, pos: nat)
    requires |data| < 0x8000_0000
    requires At(s, pos, WriteBinary(data))
    ensures ReadTag(s, pos) == Parsed(Term.Bin(data), pos + 5 + |data|)
  {
    var count := Put4(|data| % 0x1_0000_0000);
    assert WriteBinary(data) == [BinTag] + count + data;
    AtSplit(s, pos, [BinTag] + count, data, pos + 5);
    AtSplit(s, pos, [BinTag], count, pos + 1);
    AtByte(s, pos, [BinTag], 0);
    ReadBinAt(s, pos + 1, count, data);
    ReadTagAtBin(s, pos, data, pos + 5 + |data|);
  }

  /** A bitstring whose bit count is not a multiple of 8. */
  lemma BitsInverts(buffer: bytes, bits: uint8, s: bytes, pos: nat)
    requires bits % 8 != 0 && At(s, pos, WriteBitstring(buffer, bits))
    ensures ReadTag(s, pos)
         == Parsed(Term.Bits(Fit(buffer, BitPayloadSize(bits)), bits % 8),
                   pos + |WriteBitstring(buffer, bits)|)
  {
    var size := BitPayloadSize(bits);
    var count, trail, fitted := Put4(size), bits % 8, Fit(buffer, size);
    assert WriteBitstring(buffer, bits) == [BitTag] + count + [trail] + fitted;
    AtSplit(s, pos, [BitTag] + count + [trail], fitted, pos + 6);
    AtSplit(s, pos, [BitTag] + count, [trail], pos + 5);
    AtSplit(s, pos, [BitTag], count, pos + 1);
    AtByte(s, pos, [BitTag], 0);
    ReadBitAt(s, pos + 1, count, trail, fitted);
    ReadTagAtBit(s, pos);
  }

  /** Where the encoding of a clean value sits in the input, the dispatcher
      reads exactly those bytes and gives back its decoded form. */
  lemma {:induction false} ReadTagInverts(v: Value, s: bytes, pos: nat)
    requires Clean(v) && EncodedAt(v, s, pos)
    ensures ReadTag(s, pos) == Parsed(DecodedForm(v), pos + |Write(v).bytes|)
    decreases v, 3
  {
    match v
    case Tuple(elems) => TupleInverts(elems, s, pos);
    case List(items) => ListInverts(items, s, pos);
    case _ => LeafInverts(v, s, pos);
  }

  /** The same for a value that holds no other values. */
  lemma LeafInverts(v: Value, s: bytes, pos: nat)
    requires Clean(v) && EncodedAt(v, s, pos) && !v.Tuple? && !v.List?
    ensures ReadTag(s, pos) == Parsed(DecodedForm(v), pos + |Write(v).bytes|)
  {
    match v
    case Int(n) => IntInverts(n, s, pos);
    case Float(text) => FloatInverts(text, s, pos);
    case Atom(name) => AtomInverts(name, s, pos);
    case Str(chars) => StrInverts(chars, s, pos);
    case Bin(data) => BinaryInverts(data, s, pos);
    case Bits(buffer, bits) => AnyBitsInverts(buffer, bits, s, pos);
  }

  /** A bitstring reads back as a bitstring, or as a binary when its bit
      count is a whole number of bytes. */
  lemma AnyBitsInverts(buffer: bytes, bits: uint8, s: bytes, pos: nat)
    requires Clean(Value.Bits(buffer, bits)) && EncodedAt(Value.Bits(buffer, bits), s, pos)
    ensures ReadTag(s, pos)
         == Parsed(DecodedForm(Value.Bits(buffer, bits)), pos + |Write(Value.Bits(buffer, bits)).bytes|)
  {
    if bits % 8 != 0 {
      assert Write(Value.Bits(buffer, bits)).bytes == WriteBitstring(buffer, bits);
      BitsInverts(buffer, bits, s, pos);
    } else {
      BinaryInverts(buffer[..bits / 8], s, pos);
    }
  }

  /** A tuple is its tag, its arity truncated to one byte, then its
      elements; below 256 elements the arity is exact. */
  lemma TupleLayout(elems: seq<Value>)
    ensures Write(Value.Tuple(elems)).bytes == [SmallTupleTag, |elems| % 0x100] + WriteAll(elems).bytes
    ensures |elems| < 0x100 ==>
              Write(Value.Tuple(elems)).bytes == [SmallTupleTag, |elems|] + WriteAll(elems).bytes
  {
    if |elems| < 0x100 {
      SmallModulus(|elems|, 0x100);
    }
  }

  /** A list that does not panic is its tag, its count, its elements, then the
      terminator. */
  lemma ListLayout(items: seq<Value>)
    requires WriteAll(items).status != WritePanic
    ensures Write(Value.List(items)).bytes
         == [ListTag] + Put4(|items| % 0x1_0000_0000) + WriteAll(items).bytes + [NilTag]
  {
  }

  /** Where a tuple's encoding sits: its tag, its arity, then its elements. */
  lemma TupleFrame(elems: seq<Value>, s: bytes, pos: nat)
    requires |elems| < 0x100 && EncodedAt(Value.Tuple(elems), s, pos)
    ensures pos + 2 <= |s| && s[pos] == SmallTupleTag && s[pos + 1] == |elems|
    ensures At(s, pos + 2, WriteAll(elems).bytes)
    ensures |Write(Value.Tuple(elems)).bytes| == 2 + |WriteAll(elems).bytes|
  {
    var head: bytes := [SmallTupleTag, |elems|];
    TupleLayout(elems);
    AtSplit(s, pos, head, WriteAll(elems).bytes, pos + 2);
    assert head[0] == SmallTupleTag && head[1] == |elems|;
  }

  /** Where a list's encoding sits: its tag, its count, its elements, then
      the terminator. */
  lemma ListFrame(items: seq<Value>, s: bytes, pos: nat)
    requires |items| < 0x8000_0000 && Encodable(Value.List(items)) && EncodedAt(Value.List(items), s, pos)
    ensures pos + 6 + |WriteAll(items).bytes| <= |s| && s[pos] == ListTag
    ensures Int32At(s, pos + 1) == |items|
    ensures At(s, pos + 5, WriteAll(items).bytes)
    ensures |Write(Value.List(items)).bytes| == 6 + |WriteAll(items).bytes|
  {
    ListLayout(items);
    SmallModulus(|items|, 0x1_0000_0000);
    ListFrameOf(s, pos, Put4(|items| % 0x1_0000_0000), WriteAll(items).bytes, |items|);
  }

  lemma SmallModulus(n: nat, m: nat)
    requires n < m
    ensures n % m == n
  {
  }

  /** The parts of a list's frame, for any count bytes and body. */
  lemma ListFrameOf(s: bytes, pos: nat, count: bytes, body: bytes, n: nat)
    requires |count| == 4 && Unsigned(count) == n < 0x8000_0000
    requires At(s, pos, [ListTag] + count + body + [NilTag])
    ensures pos + 6 + |body| <= |s| && s[pos] == ListTag && Int32At(s, pos + 1) == n
    ensures At(s, pos + 5, body)
  {
    AtSplit(s, pos, [ListTag] + count + body, [NilTag], pos + 5 + |body|);
    AtSplit(s, pos, [ListTag] + count, body, pos + 5);
    AtSplit(s, pos, [ListTag], count, pos + 1);
    AtByte(s, pos, [ListTag], 0);
    AtInt32(s, pos + 1, count);
  }

  /** The dispatcher on a tuple tag and an arity byte starts the element loop. */
  lemma ReadTagAtTuple(s: bytes, pos: nat)
    requires pos + 2 <= |s| && s[pos] == SmallTupleTag
    ensures ReadTag(s, pos) == ReadTupleElems(s, pos + 2, s[pos + 1], [])
  {
    assert ReadTag(s, pos) == ReadTagged(s, SmallTupleTag, pos + 1);
    assert ReadTagged(s, SmallTupleTag, pos + 1) == ReadSmallTuple(s, pos + 1);
  }

  /** The dispatcher on a list tag and a non-negative count starts the
      element loop. */
  lemma ReadTagAtList(s: bytes, pos: nat)
    requires pos + 5 <= |s| && s[pos] == ListTag && Int32At(s, pos + 1) >= 0
    ensures ReadTag(s, pos) == ReadListElems(s, pos + 5, Int32At(s, pos + 1), [])
  {
    assert ReadTag(s, pos) == ReadTagged(s, ListTag, pos + 1);
    assert ReadTagged(s, ListTag, pos + 1) == ReadList(s, pos + 1);
  }

  lemma {:induction false} TupleInverts(elems: seq<Value>, s: bytes, pos: nat)
    requires Clean(Value.Tuple(elems)) && EncodedAt(Value.Tuple(elems), s, pos)
    ensures ReadTag(s, pos) == Parsed(Term.Seq(DecodedAll(elems)), pos + |Write(Value.Tuple(elems)).bytes|)
    decreases elems, 4
  {
    TupleFrame(elems, s, pos);
    ReadTagAtTuple(s, pos);
    ReadTupleElemsAll(elems, s, pos + 2);
  }

  lemma {:induction false} ListInverts(items: seq<Value>, s: bytes, pos: nat)
    requires Clean(Value.List(items)) && EncodedAt(Value.List(items), s, pos)
    ensures ReadTag(s, pos) == Parsed(Term.Seq(DecodedAll(items)), pos + |Write(Value.List(items)).bytes|)
    decreases items, 4
  {
    CleanIsEncodable(Value.List(items));
    ListFrame(items, s, pos);
    ReadTagAtList(s, pos);
    ReadListElemsAll(items, s, pos + 5);
  }

  /** The bytes of a sequence whose first element is written in full. */
  lemma WriteAllCons(vs: seq<Value>)
    requires vs != [] && Encodable(vs[0])
    ensures WriteAll(vs).bytes == Write(vs[0]).bytes + WriteAll(vs[1..]).bytes
  {
  }

  /** One turn of the tuple element loop on an element that is not `bert`. */
  lemma TupleElemsStep(s: bytes, p: nat, n: nat, acc: seq<Term>, t: Term, q: nat)
    requires p <= |s| && 0 < n && ReadTag(s, p) == Parsed(t, q) && t != Term.Atom(BertAtom)
    ensures ReadTupleElems(s, p, n, acc) == ReadTupleElems(s, q, n - 1, acc + [t])
  {
  }

  /** One turn of the list element loop. */
  lemma ListElemsStep(s: bytes, p: nat, n: nat, acc: seq<Term>, t: Term, q: nat)
    requires p <= |s| && 0 < n && ReadTag(s, p) == Parsed(t, q)
    ensures ReadListElems(s, p, n, acc) == ReadListElems(s, q, n - 1, acc + [t])
  {
  }

  /** The first element's frame and the rest's frame of a sequence frame. */
  lemma ConsFrame(pre: seq<Value>, s: bytes, p: nat, q: nat)
    requires pre != [] && Encodable(pre[0]) && At(s, p, WriteAll(pre).bytes)
    requires q == p + |Write(pre[0]).bytes|
    ensures EncodedAt(pre[0], s, p)
    ensures |WriteAll(pre).bytes| == |Write(pre[0]).bytes| + |WriteAll(pre[1..]).bytes|
    ensures At(s, q, WriteAll(pre[1..]).bytes)
  {
    WriteAllCons(pre);
    AtSplit(s, p, Write(pre[0]).bytes, WriteAll(pre[1..]).bytes, q);
  }

  lemma DecodedAllCons(vs: seq<Value>)
    requires vs != [] && forall i | 0 <= i < |vs| :: Clean(vs[i])
    ensures forall i | 0 <= i < |vs[1..]| :: Clean(vs[1..][i])
    ensures DecodedAll(vs) == [DecodedForm(vs[0])] + DecodedAll(vs[1..])
  {
  }

  /** The `i`-th of the terms `ts` is read from `ps[i]` and ends at `ps[i + 1]`. */
  /** Dropping the first read of a chain leaves a chain. */
  lemma ReadsShift(s: bytes, ps: seq<nat>, ts: seq<Term>)
    requires |ps| == |ts| + 1 && ts != []
    requires forall i | 0 <= i < |ps| :: ps[i] <= |s|
    requires forall i {:trigger ReadsAt(s, ps, ts, i)} | 0 <= i < |ts| :: ReadsAt(s, ps, ts, i)
    ensures ps[1..][0] == ps[1] && ps[1..][|ts[1..]|] == ps[|ts|]
    ensures forall i | 0 <= i < |ps[1..]| :: ps[1..][i] <= |s|
    ensures forall i {:trigger ReadsAt(s, ps[1..], ts[1..], i)} | 0 <= i < |ts[1..]| :: ReadsAt(s, ps[1..], ts[1..], i)
  {
    forall i | 0 <= i < |ts[1..]| ensures ReadsAt(s, ps[1..], ts[1..], i) {
      assert ReadsAt(s, ps, ts, i + 1);
      assert ps[1..][i] == ps[i + 1] && ps[1..][i + 1] == ps[i + 2] && ts[1..][i] == ts[i + 1];
    }
  }

  predicate ReadsAt(s: bytes, ps: seq<nat>, ts: seq<Term>, i: nat)
    requires |ps| == |ts| + 1 && i < |ts| && ps[i] <= |s|
  {
    ReadTag(s, ps[i]) == Parsed(ts[i], ps[i + 1])
  }

  /** A term read at `p` in front of a run of terms read from `ps`. */
  lemma ReadsCons(s: bytes, p: nat, ps: seq<nat>, t: Term, ts: seq<Term>)
    requires |ps| == |ts| + 1 && p <= |s| && forall i | 0 <= i < |ps| :: ps[i] <= |s|
    requires ReadTag(s, p) == Parsed(t, ps[0])
    requires forall i {:trigger ReadsAt(s, ps, ts, i)} | 0 <= i < |ts| :: ReadsAt(s, ps, ts, i)
    ensures forall i | 0 <= i < |ps| + 1 :: ([p] + ps)[i] <= |s|
    ensures forall i {:trigger ReadsAt(s, [p] + ps, [t] + ts, i)} | 0 <= i < |ts| + 1 :: ReadsAt(s, [p] + ps, [t] + ts, i)
  {
    var ps', ts' := [p] + ps, [t] + ts;
    forall i | 0 <= i < |ps| + 1 ensures ps'[i] <= |s| {
      if i > 0 {
        assert ps'[i] == ps[i - 1];
      }
    }
    forall i | 0 <= i < |ts| + 1 ensures ReadsAt(s, ps', ts', i) {
      if i > 0 {
        assert ps'[i] == ps[i - 1] && ps'[i + 1] == ps[i] && ts'[i] == ts[i - 1];
        assert ReadsAt(s, ps, ts, i - 1);
      }
    }
  }

  /** The first element of a clean sequence written at `p` reads back as
      its decoded form and ends at `q`, where the rest of the sequence
      starts. */
  lemma {:induction false} ElemReadBack(vs: seq<Value>, s: bytes, p: nat) returns (q: nat)
    requires vs != [] && forall i | 0 <= i < |vs| :: Clean(vs[i])
    requires At(s, p, WriteAll(vs).bytes)
    ensures p <= q <= |s|
    ensures ReadTag(s, p) == Parsed(DecodedForm(vs[0]), q)
    ensures forall i | 0 <= i < |vs[1..]| :: Clean(vs[1..][i])
    ensures At(s, q, WriteAll(vs[1..]).bytes)
    ensures p + |WriteAll(vs).bytes| == q + |WriteAll(vs[1..]).bytes|
    ensures DecodedAll(vs) == [DecodedForm(vs[0])] + DecodedAll(vs[1..])
    decreases vs, 0
  {
    q := p + |Write(vs[0]).bytes|;
    CleanIsEncodable(vs[0]);
    ConsFrame(vs, s, p, q);
    ReadTagInverts(vs[0], s, p);
    DecodedAllCons(vs);
  }

  /** Every element of a clean sequence written at `p` reads back, in turn,
      as its decoded form: the `i`-th from `ps[i]` to `ps[i + 1]`, the last
      one ending where the sequence's bytes end. */
  lemma {:induction false} ElemsReadBack(vs: seq<Value>, s: bytes, p: nat) returns (ps: seq<nat>)
    requires forall i | 0 <= i < |vs| :: Clean(vs[i])
    requires At(s, p, WriteAll(vs).bytes)
    ensures |ps| == |vs| + 1 && ps[0] == p && ps[|vs|] == p + |WriteAll(vs).bytes|
    ensures forall i | 0 <= i < |ps| :: ps[i] <= |s|
    ensures forall i {:trigger ReadsAt(s, ps, DecodedAll(vs), i)} | 0 <= i < |vs| ::
              ReadsAt(s, ps, DecodedAll(vs), i)
    decreases vs, 1
  {
    if vs == [] {
      ps := [p];
    } else {
      var q := ElemReadBack(vs, s, p);
      var rest := ElemsReadBack(vs[1..], s, q);
      ReadsCons(s, p, rest, DecodedForm(vs[0]), DecodedAll(vs[1..]));
      ps := [p] + rest;
      assert ps[0] == p && ps[|vs|] == rest[|vs[1..]|];
    }
  }

  /** Moving the first element of `ts` onto `acc` first. */
  lemma AppendFirst<T>(acc: seq<T>, ts: seq<T>)
    requires ts != []
    ensures acc + [ts[0]] + ts[1..] == acc + ts
  {
    assert ts == [ts[0]] + ts[1..];
  }

  /** The tuple element loop over positions where the terms `ts`, none of
      them `bert`, are laid end to end. */
  lemma {:induction false} TupleElemsRun(s: bytes, ps: seq<nat>, ts: seq<Term>, n: nat, acc: seq<Term>)
    requires |ps| == |ts| + 1 && |ts| <= n
    requires forall i | 0 <= i < |ps| :: ps[i] <= |s|
    requires forall i {:trigger ReadsAt(s, ps, ts, i)} | 0 <= i < |ts| :: ReadsAt(s, ps, ts, i) && ts[i] != Term.Atom(BertAtom)
    ensures ReadTupleElems(s, ps[0], n, acc) == ReadTupleElems(s, ps[|ts|], n - |ts|, acc + ts)
    decreases |ts|
  {
    if ts == [] {
      assert acc + [] == acc;
    } else {
      var ps', ts' := ps[1..], ts[1..];
      ReadsShift(s, ps, ts);
      assert ReadTupleElems(s, ps[0], n, acc) == ReadTupleElems(s, ps'[0], n - 1, acc + [ts[0]]) by {
        assert ReadsAt(s, ps, ts, 0);
        TupleElemsStep(s, ps[0], n, acc, ts[0], ps'[0]);
      }
      forall i | 0 <= i < |ts'| ensures ReadsAt(s, ps', ts', i) && ts'[i] != Term.Atom(BertAtom) {
        assert ReadsAt(s, ps, ts, i + 1) && ts'[i] == ts[i + 1];
      }
      TupleElemsRun(s, ps', ts', n - 1, acc + [ts[0]]);
      AppendFirst(acc, ts);
      assert ps'[|ts'|] == ps[|ts|] && n - 1 - |ts'| == n - |ts|;
    }
  }

  /** The same for the list element loop. */
  lemma {:induction false} ListElemsRun(s: bytes, ps: seq<nat>, ts: seq<Term>, n: nat, acc: seq<Term>)
    requires |ps| == |ts| + 1 && |ts| <= n
    requires forall i | 0 <= i < |ps| :: ps[i] <= |s|
    requires forall i {:trigger ReadsAt(s, ps, ts, i)} | 0 <= i < |ts| :: ReadsAt(s, ps, ts, i)
    ensures ReadListElems(s, ps[0], n, acc) == ReadListElems(s, ps[|ts|], n - |ts|, acc + ts)
    decreases |ts|
  {
    if ts == [] {
      assert acc + [] == acc;
    } else {
      var ps', ts' := ps[1..], ts[1..];
      ReadsShift(s, ps, ts);
      assert ReadListElems(s, ps[0], n, acc) == ReadListElems(s, ps'[0], n - 1, acc + [ts[0]]) by {
        assert ReadsAt(s, ps, ts, 0);
        ListElemsStep(s, ps[0], n, acc, ts[0], ps'[0]);
      }
      ListElemsRun(s, ps', ts', n - 1, acc + [ts[0]]);
      AppendFirst(acc, ts);
      assert ps'[|ts'|] == ps[|ts|] && n - 1 - |ts'| == n - |ts|;
    }
  }

  /** No clean tuple element decodes to the `bert` atom. */
  lemma {:induction false} NoBertDecoded(vs: seq<Value>)
    requires forall i | 0 <= i < |vs| :: Clean(vs[i]) && vs[i] != Value.Atom(BertAtom)
    ensures forall i | 0 <= i < |vs| :: DecodedAll(vs)[i] != Term.Atom(BertAtom)
    decreases |vs|
  {
    if vs != [] {
      assert forall i | 0 <= i < |vs[1..]| :: vs[1..][i] == vs[i + 1];
      NoBertDecoded(vs[1..]);
      assert DecodedAll(vs) == [DecodedForm(vs[0])] + DecodedAll(vs[1..]);
    }
  }

  /** Reading the clean, non-`bert` leading elements of a tuple appends
      their decoded forms and moves past their bytes. */
  lemma {:induction false} ReadTupleElemsSkip(pre: seq<Value>, s: bytes, p: nat, q: nat, n: nat, acc: seq<Term>)
    requires forall i | 0 <= i < |pre| :: Clean(pre[i]) && pre[i] != Value.Atom(BertAtom)
    requires |pre| <= n && q == p + |WriteAll(pre).bytes|
    requires At(s, p, WriteAll(pre).bytes)
    ensures q <= |s|
    ensures ReadTupleElems(s, p, n, acc) == ReadTupleElems(s, q, n - |pre|, acc + DecodedAll(pre))
    decreases pre, 2
  {
    var ps := ElemsReadBack(pre, s, p);
    var ts := DecodedAll(pre);
    NoBertDecoded(pre);
    assert |ts| == |pre| && ps[0] == p && ps[|ts|] == q;
    TupleElemsRun(s, ps, ts, n, acc);
  }

  /** The same for the elements of a list, where `bert` has no effect. */
  lemma {:induction false} ReadListElemsSkip(pre: seq<Value>, s: bytes, p: nat, q: nat, n: nat, acc: seq<Term>)
    requires forall i | 0 <= i < |pre| :: Clean(pre[i])
    requires |pre| <= n && q == p + |WriteAll(pre).bytes|
    requires At(s, p, WriteAll(pre).bytes)
    ensures q <= |s|
    ensures ReadListElems(s, p, n, acc) == ReadListElems(s, q, n - |pre|, acc + DecodedAll(pre))
    decreases pre, 2
  {
    var ps := ElemsReadBack(pre, s, p);
    var ts := DecodedAll(pre);
    assert |ts| == |pre| && ps[0] == p && ps[|ts|] == q;
    ListElemsRun(s, ps, ts, n, acc);
  }

  /** The tuple element loop over a whole clean sequence. */
  lemma {:induction false} ReadTupleElemsAll(elems: seq<Value>, s: bytes, p: nat)
    requires forall i | 0 <= i < |elems| :: Clean(elems[i]) && elems[i] != Value.Atom(BertAtom)
    requires At(s, p, WriteAll(elems).bytes)
    ensures ReadTupleElems(s, p, |elems|, [])
         == Parsed(Term.Seq(DecodedAll(elems)), p + |WriteAll(elems).bytes|)
    decreases elems, 3
  {
    var ds, end := DecodedAll(elems), p + |WriteAll(elems).bytes|;
    ReadTupleElemsSkip(elems, s, p, end, |elems|, []);
    assert [] + ds == ds;
    assert ReadTupleElems(s, end, 0, ds) == Parsed(Term.Seq(ds), end);
  }

  /** The list element loop over a whole clean sequence, then the
      terminator. */
  lemma {:induction false} ReadListElemsAll(items: seq<Value>, s: bytes, p: nat)
    requires forall i | 0 <= i < |items| :: Clean(items[i])
    requires At(s, p, WriteAll(items).bytes) && p + |WriteAll(items).bytes| < |s|
    ensures ReadListElems(s, p, |items|, [])
         == Parsed(Term.Seq(DecodedAll(items)), p + |WriteAll(items).bytes| + 1)
    decreases items, 3
  {
    var ds, end := DecodedAll(items), p + |WriteAll(items).bytes|;
    ReadListElemsSkip(items, s, p, end, |items|, []);
    assert [] + ds == ds;
    assert ReadListElems(s, end, 0, ds) == Parsed(Term.Seq(ds), end + 1);
  }

  // ---------------------------------------------------------------------
  // Top-level round trips

  /** Decode(Encode(v)) gives back the decoded form of every clean value,
      consuming the whole encoding, with no error on either side. */
  lemma DecodeInvertsEncode(v: Value)
    requires TopClean(v)
    ensures Encode(v).Returned? && Encode(v).value.error == None
    ensures Decode(Encode(v).value.bytes) == Parsed(DecodedForm(v), |Encode(v).value.bytes|)
  {
    if v == Value.Nil {
      assert Encode(v).value.bytes == [VersionTag, NilTag];
    } else {
      CleanIsEncodable(v);
      var out := Encode(v).value.bytes;
      assert out == [VersionTag] + Write(v).bytes;
      AtWhole(out);
      AtSplit(out, 0, [VersionTag], Write(v).bytes, 1);
      ReadTagInverts(v, out, 1);
    }
  }

  /** Integers: exactly the int32 range round-trips; every wider integer is
      written under the bignum tag, which the decoder refuses. */
  lemma IntRoundTrip(n: int)
    ensures Encode(Value.Int(n)).Returned? && Encode(Value.Int(n)).value.error == None
    ensures MinInt32 <= n <= MaxInt32 <==>
              Decode(Encode(Value.Int(n)).value.bytes).Parsed?
    ensures MinInt32 <= n <= MaxInt32 ==>
              Decode(Encode(Value.Int(n)).value.bytes) == Parsed(Term.Int(n), |Encode(Value.Int(n)).value.bytes|)
    ensures (n < MinInt32 || MaxInt32 < n) ==>
              Decode(Encode(Value.Int(n)).value.bytes) == ParseError(UnknownType, None)
  {
    if MinInt32 <= n <= MaxInt32 {
      DecodeInvertsEncode(Value.Int(n));
    } else {
      var out := Encode(Value.Int(n)).value.bytes;
      assert out[1] == SmallBignumTag;
    }
  }

  /** Bitstrings: a fractional bit count comes back as `bits % 8` with the
      buffer fitted to ceil(bits / 8) bytes, so a count of 1..7 survives with
      only the first byte (or a zero byte) and a count of 9 or more does not
      survive; a byte-aligned one is indistinguishable from a binary. */
  lemma BitstringRoundTrip(buffer: bytes, bits: uint8)
    requires bits % 8 != 0 || bits / 8 <= |buffer|
    ensures Encode(Value.Bits(buffer, bits)).Returned?
    ensures Decode(Encode(Value.Bits(buffer, bits)).value.bytes).Parsed?
    ensures bits % 8 != 0 ==>
              Decode(Encode(Value.Bits(buffer, bits)).value.bytes).value
                == Term.Bits(Fit(buffer, BitPayloadSize(bits)), bits % 8)
    ensures 1 <= bits <= 7 ==>
              Decode(Encode(Value.Bits(buffer, bits)).value.bytes).value
                == Term.Bits([if buffer == [] then 0 else buffer[0]], bits)
    ensures 9 <= bits && bits % 8 != 0 ==>
              Decode(Encode(Value.Bits(buffer, bits)).value.bytes).value.bits != bits
    ensures bits % 8 == 0 ==>
              Encode(Value.Bits(buffer, bits)) == Encode(Value.Bin(buffer[..bits / 8]))
  {
    DecodeInvertsEncode(Value.Bits(buffer, bits));
    if 1 <= bits <= 7 {
      SmallBitsFit(buffer, bits);
    } else if bits % 8 == 0 {
      AlignedBitsAreBinary(buffer, bits);
    }
  }

  /** Fewer than eight bits occupy one byte: the first of the buffer, or a
      zero byte when the buffer is empty. */
  lemma SmallBitsFit(buffer: bytes, bits: uint8)
    requires 1 <= bits <= 7
    ensures BitPayloadSize(bits) == 1 && bits % 8 == bits
    ensures Fit(buffer, BitPayloadSize(bits)) == [if buffer == [] then 0 else buffer[0]]
  {
    var fitted := Fit(buffer, 1);
    if buffer == [] {
      assert fitted == [0];
    } else {
      assert fitted == [buffer[0]];
    }
  }

  /** A whole number of bytes is written exactly as a binary of that many
      bytes. */
  lemma AlignedBitsAreBinary(buffer: bytes, bits: uint8)
    requires bits % 8 == 0 && bits / 8 <= |buffer|
    ensures Encode(Value.Bits(buffer, bits)) == Encode(Value.Bin(buffer[..bits / 8]))
  {
    assert Write(Value.Bits(buffer, bits)) == Write(Value.Bin(buffer[..bits / 8]));
  }

  /** A tuple and a list of the same clean elements decode to the same
      plain sequence. */
  lemma TupleAndListDecodeAlike(elems: seq<Value>)
    requires Clean(Value.Tuple(elems))
    ensures Clean(Value.List(elems))
    ensures Encode(Value.Tuple(elems)).Returned? && Encode(Value.List(elems)).Returned?
    ensures Decode(Encode(Value.Tuple(elems)).value.bytes).Parsed?
    ensures Decode(Encode(Value.List(elems)).value.bytes).Parsed?
    ensures Decode(Encode(Value.Tuple(elems)).value.bytes).value
         == Decode(Encode(Value.List(elems)).value.bytes).value
         == Term.Seq(DecodedAll(elems))
  {
    DecodeInvertsEncode(Value.Tuple(elems));
    DecodeInvertsEncode(Value.List(elems));
  }

  /** A `bert` atom inside a tuple abandons the tuple: the elements before it
      are dropped, the term after it is decoded and collapsed (nil, true and
      false become Go values), and decoding ends where the term's encoding
      ends, so what follows is never read. */
  lemma BertTupleCollapses(pre: seq<Value>, w: Value, post: seq<Value>)
    requires |pre| + 2 + |post| < 0x100
    requires forall i | 0 <= i < |pre| :: Clean(pre[i]) && pre[i] != Value.Atom(BertAtom)
    requires Clean(w)
    requires forall i | 0 <= i < |post| :: Encodable(post[i])
    ensures Encode(Value.Tuple(pre + ([Value.Atom(BertAtom), w] + post))).Returned?
    ensures Decode(Encode(Value.Tuple(pre + ([Value.Atom(BertAtom), w] + post))).value.bytes).Parsed?
    ensures Decode(Encode(Value.Tuple(pre + ([Value.Atom(BertAtom), w] + post))).value.bytes).value
         == Collapse(DecodedForm(w))
    ensures Decode(Encode(Value.Tuple(pre + ([Value.Atom(BertAtom), w] + post))).value.bytes).next
         == 3 + |WriteAll(pre).bytes| + |Write(Value.Atom(BertAtom)).bytes| + |Write(w).bytes|
  {
    var elems := pre + ([Value.Atom(BertAtom), w] + post);
    WrappedEncodable(pre, w, post);
    var out := Encode(Value.Tuple(elems)).value.bytes;
    assert out == [VersionTag] + Write(Value.Tuple(elems)).bytes;
    AtWhole(out);
    AtSplit(out, 0, [VersionTag], Write(Value.Tuple(elems)).bytes, 1);
    TupleFrame(elems, out, 1);
    ReadTagAtTuple(out, 1);
    var next := WrappedReads(pre, w, post, out, 3, |elems|);
  }

  /** Every element of a `bert`-wrapped tuple can be written. */
  lemma WrappedEncodable(pre: seq<Value>, w: Value, post: seq<Value>)
    requires forall i | 0 <= i < |pre| :: Clean(pre[i])
    requires Clean(w)
    requires forall i | 0 <= i < |post| :: Encodable(post[i])
    ensures Encodable(Value.Tuple(pre + ([Value.Atom(BertAtom), w] + post)))
  {
    var rest := [Value.Atom(BertAtom), w] + post;
    var elems := pre + rest;
    forall i | 0 <= i < |elems| ensures Encodable(elems[i]) {
      if i < |pre| {
        CleanIsEncodable(pre[i]);
      } else if i == |pre| + 1 {
        assert elems[i] == rest[1] == w;
        CleanIsEncodable(w);
      } else if i > |pre| + 1 {
        assert elems[i] == rest[i - |pre|] == post[i - |pre| - 2];
      }
    }
  }

  /** The element loop over a `bert`-wrapped tuple written at `p`: it skips
      the elements before the atom and returns the collapsed term after it. */
  lemma WrappedReads(pre: seq<Value>, w: Value, post: seq<Value>, s: bytes, p: nat, n: nat)
    returns (next: nat)
    requires |pre| < n
    requires forall i | 0 <= i < |pre| :: Clean(pre[i]) && pre[i] != Value.Atom(BertAtom)
    requires Clean(w)
    requires At(s, p, WriteAll(pre + ([Value.Atom(BertAtom), w] + post)).bytes)
    ensures ReadTupleElems(s, p, n, []) == Parsed(Collapse(DecodedForm(w)), next)
    ensures next == p + |WriteAll(pre).bytes| + |Write(Value.Atom(BertAtom)).bytes| + |Write(w).bytes|
  {
    var q := AppendFrame(pre, [Value.Atom(BertAtom), w] + post, s, p);
    next := SkipThenCollapse(pre, w, post, s, p, q, n);
  }

  /** The elements before the `bert` atom are read and dropped, then the
      term after it is collapsed. */
  lemma SkipThenCollapse(pre: seq<Value>, w: Value, post: seq<Value>, s: bytes, p: nat, q: nat, n: nat)
    returns (next: nat)
    requires |pre| < n
    requires forall i | 0 <= i < |pre| :: Clean(pre[i]) && pre[i] != Value.Atom(BertAtom)
    requires Clean(w)
    requires q == p + |WriteAll(pre).bytes|
    requires At(s, p, WriteAll(pre).bytes) && At(s, q, WriteAll([Value.Atom(BertAtom), w] + post).bytes)
    ensures ReadTupleElems(s, p, n, []) == Parsed(Collapse(DecodedForm(w)), next)
    ensures next == q + |Write(Value.Atom(BertAtom)).bytes| + |Write(w).bytes|
  {
    var m: nat, acc := n - |pre|, [] + DecodedAll(pre);
    ReadTupleElemsSkip(pre, s, p, q, n, []);
    assert ReadTupleElems(s, p, n, []) == ReadTupleElems(s, q, m, acc);
    next := AtomThenTerm(w, post, s, q, m, acc);
    assert ReadTupleElems(s, q, m, acc) == Parsed(Collapse(DecodedForm(w)), next);
  }

  /** The frame of `pre + rest` is the frame of `pre` followed by the frame
      of `rest`. */
  lemma AppendFrame(pre: seq<Value>, rest: seq<Value>, s: bytes, p: nat) returns (q: nat)
    requires forall i | 0 <= i < |pre| :: Clean(pre[i])
    requires At(s, p, WriteAll(pre + rest).bytes)
    ensures q == p + |WriteAll(pre).bytes|
    ensures At(s, p, WriteAll(pre).bytes) && At(s, q, WriteAll(rest).bytes)
  {
    forall i | 0 <= i < |pre| ensures Encodable(pre[i]) {
      CleanIsEncodable(pre[i]);
    }
    WriteAllAppend(pre, rest);
    q := p + |WriteAll(pre).bytes|;
    AtSplit(s, p, WriteAll(pre).bytes, WriteAll(rest).bytes, q);
  }

  /** The `bert` atom read by the tuple element loop hands the next term to
      readComplex. */
  lemma AtomThenTerm(w: Value, post: seq<Value>, s: bytes, q: nat, n: nat, acc: seq<Term>)
    returns (next: nat)
    requires 0 < n && Clean(w)
    requires At(s, q, WriteAll([Value.Atom(BertAtom), w] + post).bytes)
    ensures ReadTupleElems(s, q, n, acc) == Parsed(Collapse(DecodedForm(w)), next)
    ensures next == q + |Write(Value.Atom(BertAtom)).bytes| + |Write(w).bytes|
  {
    var q1;
    q1, next := AtomThenTermReads(w, post, s, q);
    CollapseStep(s, q, n, acc, q1, DecodedForm(w), next);
  }

  /** Where the `bert` atom and the term after it are read back. */
  lemma AtomThenTermReads(w: Value, post: seq<Value>, s: bytes, q: nat) returns (q1: nat, q2: nat)
    requires Clean(w)
    requires At(s, q, WriteAll([Value.Atom(BertAtom), w] + post).bytes)
    ensures q1 <= |s| && q2 <= |s|
    ensures ReadTag(s, q) == Parsed(Term.Atom(BertAtom), q1)
    ensures ReadTag(s, q1) == Parsed(DecodedForm(w), q2)
    ensures q2 == q + |Write(Value.Atom(BertAtom)).bytes| + |Write(w).bytes|
  {
    var rest := [Value.Atom(BertAtom), w] + post;
    var tail := [w] + post;
    assert rest[0] == Value.Atom(BertAtom) && rest[1..] == tail && tail[0] == w;
    q1 := HeadReadBack(rest, s, q);
    q2 := HeadReadBack(tail, s, q1);
  }

  /** The first value of a sequence frame reads back, and the rest of the
      frame follows it. */
  lemma HeadReadBack(vs: seq<Value>, s: bytes, p: nat) returns (q: nat)
    requires vs != [] && Clean(vs[0]) && At(s, p, WriteAll(vs).bytes)
    ensures q == p + |Write(vs[0]).bytes|
    ensures q <= |s| && ReadTag(s, p) == Parsed(DecodedForm(vs[0]), q)
    ensures At(s, q, WriteAll(vs[1..]).bytes)
  {
    CleanIsEncodable(vs[0]);
    q := p + |Write(vs[0]).bytes|;
    ConsFrame(vs, s, p, q);
    ReadTagInverts(vs[0], s, p);
  }

  /** One step of the tuple element loop that meets the `bert` atom. */
  lemma CollapseStep(s: bytes, q: nat, n: nat, acc: seq<Term>, q1: nat, t: Term, q2: nat)
    requires 0 < n && q <= |s| && q1 <= |s|
    requires ReadTag(s, q) == Parsed(Term.Atom(BertAtom), q1)
    requires ReadTag(s, q1) == Parsed(t, q2)
    ensures ReadTupleElems(s, q, n, acc) == Parsed(Collapse(t), q2)
  {
  }

  // ---------------------------------------------------------------------
  // Where the round trip breaks

  /** A nil inside a tuple swallows the tag of the next element: {nil, 1}
      encodes to 131,104,2,106,97,1, and the decoder reads 1 as a tag. */
  lemma NilElementBreaksTuple()
    ensures Encode(Value.Tuple([Value.Nil, Value.Int(1)])) == Returned(Encoding([131, 104, 2, 106, 97, 1], None))
    ensures Decode([131, 104, 2, 106, 97, 1]) == ParseError(UnknownType, None)
  {
    NilTupleEncoding();
    NilTupleDecoding();
  }

  lemma NilTupleEncoding()
    ensures Encode(Value.Tuple([Value.Nil, Value.Int(1)])) == Returned(Encoding([131, 104, 2, 106, 97, 1], None))
  {
    var elems := [Value.Nil, Value.Int(1)];
    assert elems[1..] == [Value.Int(1)] && [Value.Int(1)][1..] == [];
    assert WriteAll([Value.Int(1)]) == Emit([97, 1], Wrote);
    assert WriteAll(elems) == Emit([106, 97, 1], Wrote);
    assert Write(Value.Tuple(elems)) == Emit([104, 2, 106, 97, 1], Wrote);
    assert [VersionTag] + [104, 2, 106, 97, 1] == [131, 104, 2, 106, 97, 1];
  }

  lemma NilTupleDecoding()
    ensures Decode([131, 104, 2, 106, 97, 1]) == ParseError(UnknownType, None)
  {
    var s: bytes := [131, 104, 2, 106, 97, 1];
    assert ReadTag(s, 5) == ParseError(UnknownType, None);
    assert ReadTag(s, 3) == Parsed(Term.Seq([]), 5);
    assert ReadTupleElems(s, 3, 2, []) == ParseError(UnknownType, None);
    assert ReadTag(s, 1) == ParseError(UnknownType, None);
  }

  /** A nil as the last element of a top-level list swallows the terminator,
      and the terminator read then runs off the end of the input. */
  lemma NilElementBreaksList()
    ensures Encode(Value.List([Value.Nil])) == Returned(Encoding([131, 108, 0, 0, 0, 1, 106, 106], None))
    ensures Decode([131, 108, 0, 0, 0, 1, 106, 106]) == ParsePanic
  {
    NilListEncoding();
    NilListDecoding();
  }

  lemma NilListEncoding()
    ensures Encode(Value.List([Value.Nil])) == Returned(Encoding([131, 108, 0, 0, 0, 1, 106, 106], None))
  {
    assert [Value.Nil][1..] == [];
    assert WriteAll([Value.Nil]) == Emit([106], Wrote);
    assert Put4(1) == [0, 0, 0, 1];
    assert Write(Value.List([Value.Nil])) == Emit([108, 0, 0, 0, 1, 106, 106], Wrote);
    assert [VersionTag] + [108, 0, 0, 0, 1, 106, 106] == [131, 108, 0, 0, 0, 1, 106, 106];
  }

  lemma NilListDecoding()
    ensures Decode([131, 108, 0, 0, 0, 1, 106, 106]) == ParsePanic
  {
    var s: bytes := [131, 108, 0, 0, 0, 1, 106, 106];
    Unsigned4(s[2..6]);
  }

  /** A short payload is returned as far as it goes, without an error. */
  lemma TruncatedBinaryDecodes()
    ensures Decode([131, 109, 0, 0, 0, 5, 1, 2]) == Parsed(Term.Bin([1, 2]), 8)
    ensures Decode([131, 100, 0, 9, 102]) == Parsed(Term.Atom([102]), 5)
  {
    var s: bytes := [131, 109, 0, 0, 0, 5, 1, 2];
    Unsigned4(s[2..6]);
    var t: bytes := [131, 100, 0, 9, 102];
    Unsigned2(t[2..4]);
  }

  // ---------------------------------------------------------------------
  // BURP frames

  /** A response frame read back as a request frame: the length prefix
      selects exactly the encoded term, which is then bound by position. */
  lemma FrameRoundTrip(v: Value)
    requires TopClean(v)
    requires |Write(v).bytes| < 0x7fff_ffff
    ensures MarshalResponse(v).Returned? && MarshalResponse(v).value.error == None
    ensures UnmarshalRequest(MarshalResponse(v).value.bytes) == BindRequest(DecodedForm(v))
  {
    DecodeInvertsEncode(v);
    EncodedLength(v);
    FrameCarries(MarshalResponse(v).value.bytes, Encode(v).value.bytes);
  }

  /** A response whose encoding is 2^31 bytes or longer, but below 2^32,
      carries a length prefix that `read4` takes as negative, so reading it
      back as a request frame panics. */
  lemma LongFramePanics(v: Value)
    requires Write(v).status != WritePanic
    requires 0x7fff_ffff <= |Write(v).bytes| < 0xffff_ffff
    ensures MarshalResponse(v).Returned?
    ensures UnmarshalRequest(MarshalResponse(v).value.bytes) == Panicked
  {
    EncodedLength(v);
    var frame := MarshalResponse(v).value.bytes;
    var n := |frame| - 4;
    assert 0x8000_0000 <= n < 0x1_0000_0000;
    SmallModulus(n, 0x1_0000_0000);
    assert frame[0..4] == frame[..4];
    assert Int32At(frame, 0) == n - 0x1_0000_0000;
  }

  /** The encoding is the version marker followed by the written bytes. */
  lemma EncodedLength(v: Value)
    requires Write(v).status != WritePanic
    ensures Encode(v).Returned? && |Encode(v).value.bytes| == 1 + |Write(v).bytes|
  {
  }

  /** A frame whose prefix holds the length of the rest hands exactly the
      rest to the decoder. */
  lemma FrameCarries(frame: bytes, payload: bytes)
    requires |payload| < 0x8000_0000 && |frame| >= 4 && frame[4..] == payload
    requires Unsigned(frame[..4]) == (|frame| - 4) % 0x1_0000_0000
    ensures UnmarshalRequest(frame) == Unmarshal(payload)
  {
    SmallModulus(|payload|, 0x1_0000_0000);
    assert frame[0..4] == frame[..4];
    assert Int32At(frame, 0) == |payload|;
    assert FramePayload(frame) == frame[4..4 + |payload|] == payload;
  }

  /** The request envelope {Kind, Module, Function, Arguments} survives the
      frame when its names are ordinary atoms and its arguments are clean. */
  lemma RequestFrameRoundTrip(kind: bytes, mod: bytes, fun: bytes, args: seq<Value>)
    requires |kind| < 0x1_0000 && |mod| < 0x1_0000 && |fun| < 0x1_0000
    requires BertAtom !in {kind, mod, fun}
    requires Clean(Value.Tuple(args))
    requires |Write(Value.Tuple([Value.Atom(kind), Value.Atom(mod), Value.Atom(fun),
                                 Value.Tuple(args)])).bytes| < 0x7fff_ffff
    ensures MarshalResponse(Value.Tuple([Value.Atom(kind), Value.Atom(mod),
                                         Value.Atom(fun), Value.Tuple(args)])).Returned?
    ensures UnmarshalRequest(MarshalResponse(Value.Tuple([Value.Atom(kind), Value.Atom(mod),
                                                          Value.Atom(fun), Value.Tuple(args)])).value.bytes)
         == Returned(Request(kind, mod, fun, DecodedAll(args)))
  {
    var v := Value.Tuple([Value.Atom(kind), Value.Atom(mod), Value.Atom(fun), Value.Tuple(args)]);
    EnvelopeClean(kind, mod, fun, args);
    FrameRoundTrip(v);
    EnvelopeDecoded(kind, mod, fun, args);
    EnvelopeBinds(kind, mod, fun, DecodedAll(args));
  }

  lemma EnvelopeClean(kind: bytes, mod: bytes, fun: bytes, args: seq<Value>)
    requires |kind| < 0x1_0000 && |mod| < 0x1_0000 && |fun| < 0x1_0000
    requires BertAtom !in {kind, mod, fun}
    requires Clean(Value.Tuple(args))
    ensures Clean(Value.Tuple([Value.Atom(kind), Value.Atom(mod), Value.Atom(fun), Value.Tuple(args)]))
  {
    var elems := [Value.Atom(kind), Value.Atom(mod), Value.Atom(fun), Value.Tuple(args)];
    forall i | 0 <= i < 4 ensures Clean(elems[i]) && elems[i] != Value.Atom(BertAtom) {
    }
  }

  lemma EnvelopeDecoded(kind: bytes, mod: bytes, fun: bytes, args: seq<Value>)
    requires Clean(Value.Tuple([Value.Atom(kind), Value.Atom(mod), Value.Atom(fun), Value.Tuple(args)]))
    ensures Clean(Value.Tuple(args))
    ensures DecodedForm(Value.Tuple([Value.Atom(kind), Value.Atom(mod), Value.Atom(fun), Value.Tuple(args)]))
         == Term.Seq([Term.Atom(kind), Term.Atom(mod), Term.Atom(fun), Term.Seq(DecodedAll(args))])
  {
    var elems := [Value.Atom(kind), Value.Atom(mod), Value.Atom(fun), Value.Tuple(args)];
    assert Clean(elems[0]) && Clean(elems[1]) && Clean(elems[2]) && Clean(elems[3]);
    DecodedFour(elems[0], elems[1], elems[2], elems[3]);
  }

  lemma DecodedFour(a: Value, b: Value, c: Value, d: Value)
    requires Clean(a) && Clean(b) && Clean(c) && Clean(d)
    ensures DecodedAll([a, b, c, d]) == [DecodedForm(a), DecodedForm(b), DecodedForm(c), DecodedForm(d)]
  {
    assert [a, b, c, d][1..] == [b, c, d] && [b, c, d][1..] == [c, d];
    assert [c, d][1..] == [d] && [d][1..] == [];
    DecodedAllCons([d]);
    DecodedAllCons([c, d]);
    DecodedAllCons([b, c, d]);
    DecodedAllCons([a, b, c, d]);
  }

  lemma EnvelopeBinds(kind: bytes, mod: bytes, fun: bytes, ts: seq<Term>)
    ensures BindRequest(Term.Seq([Term.Atom(kind), Term.Atom(mod), Term.Atom(fun), Term.Seq(ts)]))
         == Returned(Request(kind, mod, fun, ts))
  {
    var r := BindRequest(Term.Seq([Term.Atom(kind), Term.Atom(mod), Term.Atom(fun), Term.Seq(ts)]));
    assert Field(r.value, 0) == Term.Atom(kind);
    assert Field(r.value, 1) == Term.Atom(mod);
    assert Field(r.value, 2) == Term.Atom(fun);
    assert Field(r.value, 3) == Term.Seq(ts);
  }

  /** The decode error is discarded. The nil term behind most errors makes
      the binder panic, but a list whose element fails gives back a nil
      slice, and the request comes back zero with no error at all, unless
      a tuple around the list replaces that slice by nil. A short sequence
      fills the leading fields only. */
  lemma UnmarshalExamples()
    ensures Unmarshal([130, 97, 1]) == Panicked
    ensures Unmarshal([131, 110, 1, 0, 5]) == Panicked
    ensures Unmarshal([131, 108, 0, 0, 0, 1, 110]) == Returned(ZeroRequest)
    ensures Unmarshal([131, 104, 1, 108, 0, 0, 0, 1, 110]) == Panicked
    ensures Unmarshal([131, 104, 1, 100, 0, 1, 97]) == Returned(Request([97], [], [], []))
    ensures Unmarshal([131, 97, 1]) == Panicked
    ensures Unmarshal([131, 107, 0, 0]) == Returned(ZeroRequest)
  {
    UnmarshalBadMagic();
    UnmarshalBignum();
    UnmarshalListError();
    UnmarshalNestedListError();
    UnmarshalOneAtom();
    UnmarshalInteger();
    UnmarshalEmptyString();
  }

  lemma UnmarshalBadMagic()
    ensures Unmarshal([130, 97, 1]) == Panicked
  {
    assert Decode([130, 97, 1]) == ParseError(BadMagic, None);
  }

  lemma UnmarshalBignum()
    ensures Unmarshal([131, 110, 1, 0, 5]) == Panicked
  {
    assert Decode([131, 110, 1, 0, 5]) == ParseError(UnknownType, None);
  }

  lemma UnmarshalListError()
    ensures Unmarshal([131, 108, 0, 0, 0, 1, 110]) == Returned(ZeroRequest)
  {
    var s: bytes := [131, 108, 0, 0, 0, 1, 110];
    Unsigned4(s[2..6]);
    assert ReadTag(s, 6) == ParseError(UnknownType, None);
    assert ReadList(s, 2) == ParseError(UnknownType, Some(Term.Seq([])));
    assert Decode(s) == ParseError(UnknownType, Some(Term.Seq([])));
  }

  lemma UnmarshalNestedListError()
    ensures Unmarshal([131, 104, 1, 108, 0, 0, 0, 1, 110]) == Panicked
  {
    var s: bytes := [131, 104, 1, 108, 0, 0, 0, 1, 110];
    Unsigned4(s[4..8]);
    assert ReadTag(s, 8) == ParseError(UnknownType, None);
    assert ReadTag(s, 3) == ParseError(UnknownType, Some(Term.Seq([])));
    assert ReadTupleElems(s, 3, 1, []) == ParseError(UnknownType, None);
    assert Decode(s) == ParseError(UnknownType, None);
  }

  /** A top-level list that fails is bound through its nil slice: any
      decode error of the list, in particular one in its first element,
      gives the zero request. */
  lemma ListErrorBinds(s: bytes)
    requires 2 <= |s| && s[0] == VersionTag && s[1] == ListTag
    ensures Decode(s).ParseError? ==> Unmarshal(s) == Returned(ZeroRequest)
    ensures 6 <= |s| && Int32At(s, 2) > 0 && ReadTag(s, 6).ParseError? ==>
              Unmarshal(s) == Returned(ZeroRequest)
  {
    assert Decode(s) == ReadTag(s, 1);
    assert ReadTag(s, 1) == ReadTagged(s, ListTag, 2);
    assert ReadTagged(s, ListTag, 2) == ReadList(s, 2);
  }

  /** A top-level tuple whose first element fails returns a nil term with
      the error, and binding it panics. */
  lemma TupleErrorPanics(s: bytes)
    requires 3 <= |s| && s[0] == VersionTag && s[1] == SmallTupleTag
    ensures 0 < s[2] && ReadTag(s, 3).ParseError? ==> Unmarshal(s) == Panicked
  {
    assert Decode(s) == ReadTag(s, 1);
    assert ReadTag(s, 1) == ReadTagged(s, SmallTupleTag, 2);
    assert ReadTagged(s, SmallTupleTag, 2) == ReadSmallTuple(s, 2);
  }

  lemma UnmarshalOneAtom()
    ensures Unmarshal([131, 104, 1, 100, 0, 1, 97]) == Returned(Request([97], [], [], []))
  {
    var s: bytes := [131, 104, 1, 100, 0, 1, 97];
    OneAtomText(s);
    ReadTagAtText(s, 3, [97], 7);
    TupleElemsStep(s, 3, 1, [], Term.Atom([97]), 7);
    assert [] + [Term.Atom([97])] == [Term.Atom([97])];
    ReadTagAtTuple(s, 1);
    assert Decode(s) == ReadTag(s, 1);
    EnvelopeKindOnly([97]);
  }

  lemma OneAtomText(s: bytes)
    requires s == [131, 104, 1, 100, 0, 1, 97]
    ensures ReadShortText(s, 4) == Parsed([97], 7)
  {
    Unsigned2(s[4..6]);
    assert s[6..7] == [97];
  }

  lemma EnvelopeKindOnly(kind: bytes)
    ensures BindRequest(Term.Seq([Term.Atom(kind)])) == Returned(Request(kind, [], [], []))
  {
    var r := BindRequest(Term.Seq([Term.Atom(kind)]));
    assert Field(r.value, 0) == Term.Atom(kind);
    assert Field(r.value, 1) == Term.Atom([]);
    assert Field(r.value, 2) == Term.Atom([]);
    assert Field(r.value, 3) == Term.Seq([]);
  }

  lemma UnmarshalInteger()
    ensures Unmarshal([131, 97, 1]) == Panicked
  {
    assert Decode([131, 97, 1]) == Parsed(Term.Int(1), 3);
  }

  lemma UnmarshalEmptyString()
    ensures Unmarshal([131, 107, 0, 0]) == Returned(ZeroRequest)
  {
    var t: bytes := [131, 107, 0, 0];
    Unsigned2(t[2..4]);
    assert Decode(t) == Parsed(Term.Str([]), 4);
  }

  // ---------------------------------------------------------------------
  // Fixture vectors

  /** The encodings the repository's tests expect: the version marker 131,
      then the bytes of the term. Every unsigned kind is classified as
      `Int`, so `uint(1)` and `uint(100000000000)` are the `Int(1)` and
      `Int(100000000000)` clauses, and `[2]Term{uint(1), uint(2)}` is the
      two-integer list; the dynamic `List{Items: 1, 2, 3}` is the same
      `Value.List` as the array `[3]Term{1, 2, 3}`. The float vectors are
      not reproduced, because float formatting is not modelled. */
  lemma EncodeFixtures()
    ensures Encode(Value.Int(1))
         == Returned(Encoding([131] + [97, 1], None))
    ensures Encode(Value.Int(42))
         == Returned(Encoding([131] + [97, 42], None))
    ensures Encode(Value.Int(257))
         == Returned(Encoding([131] + [98, 0, 0, 1, 1], None))
    ensures Encode(Value.Int(1025))
         == Returned(Encoding([131] + [98, 0, 0, 4, 1], None))
    ensures Encode(Value.Int(-1))
         == Returned(Encoding([131] + [98, 255, 255, 255, 255], None))
    ensures Encode(Value.Int(-8))
         == Returned(Encoding([131] + [98, 255, 255, 255, 248], None))
    ensures Encode(Value.Int(5000))
         == Returned(Encoding([131] + [98, 0, 0, 19, 136], None))
    ensures Encode(Value.Int(-5000))
         == Returned(Encoding([131] + [98, 255, 255, 236, 120], None))
    ensures Encode(Value.Int(100000000000))
         == Returned(Encoding([131] + [110, 5, 0, 0, 232, 118, 72, 23], None))
    ensures Encode(Value.Int(-100000000000))
         == Returned(Encoding([131] + [110, 5, 1, 0, 232, 118, 72, 23], None))
    ensures Encode(Value.Atom([102, 111, 111]))
         == Returned(Encoding([131] + [100, 0, 3, 102, 111, 111], None))
    ensures Encode(Value.Nil)
         == Returned(Encoding([131] + [106], None))
    ensures Encode(Value.Str([102, 111, 111]))
         == Returned(Encoding([131] + [107, 0, 3, 102, 111, 111], None))
    ensures Encode(Value.Bin([1, 2, 3, 4]))
         == Returned(Encoding([131] + [109, 0, 0, 0, 4, 1, 2, 3, 4], None))
    ensures Encode(Value.Bits([128], 1))
         == Returned(Encoding([131] + [77, 0, 0, 0, 1, 1, 128], None))
    ensures Encode(Value.Tuple([Value.Atom([102, 111, 111])]))
         == Returned(Encoding([131] + [104, 1, 100, 0, 3, 102, 111, 111], None))
    ensures Encode(Value.Tuple([Value.Atom([99, 111, 111, 114, 100]), Value.Int(23), Value.Int(42)]))
         == Returned(Encoding([131] + [104, 3, 100, 0, 5, 99, 111, 111, 114, 100, 97, 23, 97, 42], None))
    ensures Encode(Value.Tuple([Value.Bin([48]), Value.Bin([49])]))
         == Returned(Encoding([131] + [104, 2, 109, 0, 0, 0, 1, 48, 109, 0, 0, 0, 1, 49], None))
    ensures Encode(Value.List([Value.Int(1)]))
         == Returned(Encoding([131] + [108, 0, 0, 0, 1, 97, 1, 106], None))
    ensures Encode(Value.List([Value.Int(1), Value.Int(2), Value.Int(3)]))
         == Returned(Encoding([131] + [108, 0, 0, 0, 3, 97, 1, 97, 2, 97, 3, 106], None))
    ensures Encode(Value.List([Value.Atom([97]), Value.Atom([98])]))
         == Returned(Encoding([131] + [108, 0, 0, 0, 2, 100, 0, 1, 97, 100, 0, 1, 98, 106], None))
    ensures Encode(Value.List([Value.Int(1), Value.Int(2)]))
         == Returned(Encoding([131] + [108, 0, 0, 0, 2, 97, 1, 97, 2, 106], None))
    ensures MarshalResponse(Value.Tuple([Value.Atom([114, 101, 112, 108, 121]), Value.Int(42)]))
         == Returned(Encoding([0, 0, 0, 13] + ([131] + [104, 2, 100, 0, 5, 114, 101, 112, 108, 121, 97, 42]), None))
  {
    FixtureInt1();
    FixtureInt42();
    FixtureInt257();
    FixtureInt1025();
    FixtureIntMinus1();
    FixtureIntMinus8();
    FixtureInt5000();
    FixtureIntMinus5000();
    FixtureBignum();
    FixtureBignumMinus();
    FixtureAtom();
    FixtureNil();
    FixtureString();
    FixtureBinary();
    FixtureBitstring();
    FixtureTupleFoo();
    FixtureTupleCoord();
    FixtureTupleBinaries();
    FixtureListOne();
    FixtureListThree();
    FixtureListAtoms();
    FixtureListTwo();
    FixtureResponse();
  }

  /** A value written completely is encoded behind the version marker. */
  lemma EncodeWrote(v: Value)
    requires Encodable(v)
    ensures Encode(v) == Returned(Encoding([VersionTag] + Write(v).bytes, None))
  {
  }

  /** The magnitude of 10^11, least significant byte first. */
  lemma BignumDigits()
    ensures Reverse(Magnitude(100000000000)) == [0, 232, 118, 72, 23]
  {
    MagnitudeStep(0x17, [], 0x17);
    MagnitudeStep(0x1748, [0x17], 0x48);
    MagnitudeStep(0x17_4876, [0x17, 0x48], 0x76);
    MagnitudeStep(0x17_4876_E8, [0x17, 0x48, 0x76], 0xE8);
    MagnitudeStep(100000000000, [0x17, 0x48, 0x76, 0xE8], 0);
    ReverseFive([0x17, 0x48, 0x76, 0xE8, 0]);
  }

  /** One more byte of a magnitude: the high part's bytes, then the low byte. */
  lemma MagnitudeStep(m: nat, high: bytes, low: uint8)
    requires 0 < m && Magnitude(m / 0x100) == high && m % 0x100 == low
    ensures Magnitude(m) == high + [low]
  {
  }

  lemma ReverseFive(s: bytes)
    requires |s| == 5
    ensures Reverse(s) == [s[4], s[3], s[2], s[1], s[0]]
  {
  }

  lemma TupleCoordBytes()
    ensures [104, 3] + (([100, 0, 5] + [99, 111, 111, 114, 100]) + [97, 23] + [97, 42])
         == [104, 3, 100, 0, 5, 99, 111, 111, 114, 100, 97, 23, 97, 42]
  {
  }

  lemma TupleBinariesBytes()
    ensures [104, 2] + (([109, 0, 0, 0, 1] + [48]) + ([109, 0, 0, 0, 1] + [49]))
         == [104, 2, 109, 0, 0, 0, 1, 48, 109, 0, 0, 0, 1, 49]
  {
  }

  lemma ListThreeBytes()
    ensures [108] + [0, 0, 0, 3] + ([97, 1] + [97, 2] + [97, 3]) + [106]
         == [108, 0, 0, 0, 3, 97, 1, 97, 2, 97, 3, 106]
  {
  }

  lemma ListTwoBytes()
    ensures [108] + [0, 0, 0, 2] + ([97, 1] + [97, 2]) + [106]
         == [108, 0, 0, 0, 2, 97, 1, 97, 2, 106]
  {
  }

  lemma ListAtomsBytes()
    ensures [108] + [0, 0, 0, 2] + (([100, 0, 1] + [97]) + ([100, 0, 1] + [98])) + [106]
         == [108, 0, 0, 0, 2, 100, 0, 1, 97, 100, 0, 1, 98, 106]
  {
  }

  lemma ReplyBytes()
    ensures [104, 2] + (([100, 0, 5] + [114, 101, 112, 108, 121]) + [97, 42])
         == [104, 2, 100, 0, 5, 114, 101, 112, 108, 121, 97, 42]
  {
  }

  /** A bignum: the tag, the digit count, the sign byte, the digits least
      significant first. */
  lemma WrittenBignum(n: int, digits: bytes)
    requires (n < MinInt32 || MaxInt32 < n) && |digits| < 0x100
    requires Reverse(Magnitude(Abs(n))) == digits
    ensures Write(Value.Int(n)) == Emit([SmallBignumTag, |digits|, if n >= 0 then 0 else 1] + digits, Wrote)
  {
    SmallModulus(|digits|, 0x100);
  }

  /** Fewer than eight bits in a one-byte buffer. */
  lemma WrittenSmallBits(x: uint8, bits: uint8)
    requires 1 <= bits <= 7
    ensures Write(Value.Bits([x], bits)) == Emit([BitTag, 0, 0, 0, 1, bits, x], Wrote)
  {
    assert BitPayloadSize(bits) == 1 && bits % 8 == bits;
    assert Put4(1) == [0, 0, 0, 1];
    assert Fit([x], 1) == [x];
  }

  /** The bytes of a short atom: the tag, a two-byte length, the name. */
  lemma WrittenAtom(name: bytes)
    requires |name| < 0x100
    ensures Write(Value.Atom(name)) == Emit([AtomTag, 0, |name|] + name, Wrote)
  {
    SmallModulus(|name|, 0x1_0000);
    assert Put2(|name|) == [0, |name|];
  }

  /** The bytes of a short binary: the tag, a four-byte length, the data. */
  lemma WrittenBin(data: bytes)
    requires |data| < 0x100
    ensures Write(Value.Bin(data)) == Emit([BinTag, 0, 0, 0, |data|] + data, Wrote)
  {
    SmallCount(|data|);
  }

  /** A byte-sized integer is the small-integer tag and the byte. */
  lemma WrittenSmallInt(x: uint8)
    ensures Write(Value.Int(x)) == Emit([SmallIntTag, x], Wrote)
  {
  }

  /** A small count as four bytes. */
  lemma SmallCount(n: nat)
    requires n < 0x100
    ensures n % 0x1_0000_0000 == n && Put4(n) == [0, 0, 0, n]
  {
    SmallModulus(n, 0x1_0000_0000);
  }

  lemma WrittenOne(a: Value)
    ensures WriteAll([a]) == Emit(Write(a).bytes, Write(a).status)
  {
    assert [a][1..] == [];
    assert Write(a).bytes + [] == Write(a).bytes;
  }

  lemma WrittenTwo(a: Value, b: Value)
    requires Write(a).status == Wrote
    ensures WriteAll([a, b]) == Emit(Write(a).bytes + Write(b).bytes, Write(b).status)
  {
    assert [a, b][1..] == [b];
    WrittenOne(b);
  }

  lemma WrittenThree(a: Value, b: Value, c: Value)
    requires Write(a).status == Wrote && Write(b).status == Wrote
    ensures WriteAll([a, b, c]) == Emit(Write(a).bytes + Write(b).bytes + Write(c).bytes, Write(c).status)
  {
    assert [a, b, c][1..] == [b, c];
    WrittenTwo(b, c);
  }

  lemma FixtureInt1()
    ensures Encode(Value.Int(1))
         == Returned(Encoding([131] + [97, 1], None))
  {
    EncodeWrote(Value.Int(1));
    assert Write(Value.Int(1)).bytes
        == [97, 1];
  }

  lemma FixtureInt42()
    ensures Encode(Value.Int(42))
         == Returned(Encoding([131] + [97, 42], None))
  {
    EncodeWrote(Value.Int(42));
    assert Write(Value.Int(42)).bytes
        == [97, 42];
  }

  lemma FixtureInt257()
    ensures Encode(Value.Int(257))
         == Returned(Encoding([131] + [98, 0, 0, 1, 1], None))
  {
    assert Put4(257) == [0, 0, 1, 1];
    EncodeWrote(Value.Int(257));
    assert Write(Value.Int(257)).bytes
        == [98, 0, 0, 1, 1];
  }

  lemma FixtureInt1025()
    ensures Encode(Value.Int(1025))
         == Returned(Encoding([131] + [98, 0, 0, 4, 1], None))
  {
    assert Put4(1025) == [0, 0, 4, 1];
    EncodeWrote(Value.Int(1025));
    assert Write(Value.Int(1025)).bytes
        == [98, 0, 0, 4, 1];
  }

  lemma FixtureIntMinus1()
    ensures Encode(Value.Int(-1))
         == Returned(Encoding([131] + [98, 255, 255, 255, 255], None))
  {
    assert Put4(-1 % 0x1_0000_0000) == [255, 255, 255, 255];
    EncodeWrote(Value.Int(-1));
    assert Write(Value.Int(-1)).bytes
        == [98, 255, 255, 255, 255];
  }

  lemma FixtureIntMinus8()
    ensures Encode(Value.Int(-8))
         == Returned(Encoding([131] + [98, 255, 255, 255, 248], None))
  {
    assert Put4(-8 % 0x1_0000_0000) == [255, 255, 255, 248];
    EncodeWrote(Value.Int(-8));
    assert Write(Value.Int(-8)).bytes
        == [98, 255, 255, 255, 248];
  }

  lemma FixtureInt5000()
    ensures Encode(Value.Int(5000))
         == Returned(Encoding([131] + [98, 0, 0, 19, 136], None))
  {
    assert Put4(5000) == [0, 0, 19, 136];
    EncodeWrote(Value.Int(5000));
    assert Write(Value.Int(5000)).bytes
        == [98, 0, 0, 19, 136];
  }

  lemma FixtureIntMinus5000()
    ensures Encode(Value.Int(-5000))
         == Returned(Encoding([131] + [98, 255, 255, 236, 120], None))
  {
    assert Put4(-5000 % 0x1_0000_0000) == [255, 255, 236, 120];
    EncodeWrote(Value.Int(-5000));
    assert Write(Value.Int(-5000)).bytes
        == [98, 255, 255, 236, 120];
  }

  lemma FixtureBignum()
    ensures Encode(Value.Int(100000000000))
         == Returned(Encoding([131] + [110, 5, 0, 0, 232, 118, 72, 23], None))
  {
    BignumDigits();
    WrittenBignum(100000000000, [0, 232, 118, 72, 23]);
    EncodeWrote(Value.Int(100000000000));
    assert [SmallBignumTag, 5, 0] + [0, 232, 118, 72, 23] == [110, 5, 0, 0, 232, 118, 72, 23];
  }
  lemma FixtureBignumMinus()
    ensures Encode(Value.Int(-100000000000))
         == Returned(Encoding([131] + [110, 5, 1, 0, 232, 118, 72, 23], None))
  {
    BignumDigits();
    WrittenBignum(-100000000000, [0, 232, 118, 72, 23]);
    EncodeWrote(Value.Int(-100000000000));
    assert [SmallBignumTag, 5, 1] + [0, 232, 118, 72, 23] == [110, 5, 1, 0, 232, 118, 72, 23];
  }
  lemma FixtureAtom()
    ensures Encode(Value.Atom([102, 111, 111]))
         == Returned(Encoding([131] + [100, 0, 3, 102, 111, 111], None))
  {
    EncodeWrote(Value.Atom([102, 111, 111]));
    assert Write(Value.Atom([102, 111, 111])).bytes
        == [100, 0, 3, 102, 111, 111];
  }

  lemma FixtureNil()
    ensures Encode(Value.Nil)
         == Returned(Encoding([131] + [106], None))
  {
    EncodeWrote(Value.Nil);
    assert Write(Value.Nil).bytes
        == [106];
  }

  lemma FixtureString()
    ensures Encode(Value.Str([102, 111, 111]))
         == Returned(Encoding([131] + [107, 0, 3, 102, 111, 111], None))
  {
    EncodeWrote(Value.Str([102, 111, 111]));
    assert Write(Value.Str([102, 111, 111])).bytes
        == [107, 0, 3, 102, 111, 111];
  }

  lemma FixtureBinary()
    ensures Encode(Value.Bin([1, 2, 3, 4]))
         == Returned(Encoding([131] + [109, 0, 0, 0, 4, 1, 2, 3, 4], None))
  {
    WrittenBin([1, 2, 3, 4]);
    EncodeWrote(Value.Bin([1, 2, 3, 4]));
    assert [BinTag, 0, 0, 0, 4] + [1, 2, 3, 4] == [109, 0, 0, 0, 4, 1, 2, 3, 4];
  }
  lemma FixtureBitstring()
    ensures Encode(Value.Bits([128], 1))
         == Returned(Encoding([131] + [77, 0, 0, 0, 1, 1, 128], None))
  {
    WrittenSmallBits(128, 1);
    EncodeWrote(Value.Bits([128], 1));
  }
  lemma FixtureTupleFoo()
    ensures Encode(Value.Tuple([Value.Atom([102, 111, 111])]))
         == Returned(Encoding([131] + [104, 1, 100, 0, 3, 102, 111, 111], None))
  {
    var a := Value.Atom([102, 111, 111]);
    WrittenAtom([102, 111, 111]);
    WrittenOne(a);
    TupleLayout([a]);
    EncodeWrote(Value.Tuple([a]));
    assert [104, 1] + ([100, 0, 3] + [102, 111, 111]) == [104, 1, 100, 0, 3, 102, 111, 111];
  }
  lemma FixtureTupleCoord()
    ensures Encode(Value.Tuple([Value.Atom([99, 111, 111, 114, 100]), Value.Int(23), Value.Int(42)]))
         == Returned(Encoding([131] + [104, 3, 100, 0, 5, 99, 111, 111, 114, 100, 97, 23, 97, 42], None))
  {
    var a, b, c := Value.Atom([99, 111, 111, 114, 100]), Value.Int(23), Value.Int(42);
    WrittenAtom([99, 111, 111, 114, 100]);
    WrittenSmallInt(23);
    WrittenSmallInt(42);
    WrittenThree(a, b, c);
    TupleLayout([a, b, c]);
    EncodeWrote(Value.Tuple([a, b, c]));
    TupleCoordBytes();
  }
  lemma FixtureTupleBinaries()
    ensures Encode(Value.Tuple([Value.Bin([48]), Value.Bin([49])]))
         == Returned(Encoding([131] + [104, 2, 109, 0, 0, 0, 1, 48, 109, 0, 0, 0, 1, 49], None))
  {
    var a, b := Value.Bin([48]), Value.Bin([49]);
    WrittenBin([48]);
    WrittenBin([49]);
    WrittenTwo(a, b);
    TupleLayout([a, b]);
    EncodeWrote(Value.Tuple([a, b]));
    TupleBinariesBytes();
  }
  lemma FixtureListOne()
    ensures Encode(Value.List([Value.Int(1)]))
         == Returned(Encoding([131] + [108, 0, 0, 0, 1, 97, 1, 106], None))
  {
    var a := Value.Int(1);
    WrittenSmallInt(1);
    WrittenOne(a);
    ListLayout([a]);
    SmallCount(1);
    EncodeWrote(Value.List([a]));
    assert [108] + [0, 0, 0, 1] + [97, 1] + [106] == [108, 0, 0, 0, 1, 97, 1, 106];
  }
  lemma FixtureListThree()
    ensures Encode(Value.List([Value.Int(1), Value.Int(2), Value.Int(3)]))
         == Returned(Encoding([131] + [108, 0, 0, 0, 3, 97, 1, 97, 2, 97, 3, 106], None))
  {
    var a, b, c := Value.Int(1), Value.Int(2), Value.Int(3);
    WrittenSmallInt(1);
    WrittenSmallInt(2);
    WrittenSmallInt(3);
    WrittenThree(a, b, c);
    ListLayout([a, b, c]);
    SmallCount(3);
    EncodeWrote(Value.List([a, b, c]));
    ListThreeBytes();
  }
  lemma FixtureListAtoms()
    ensures Encode(Value.List([Value.Atom([97]), Value.Atom([98])]))
         == Returned(Encoding([131] + [108, 0, 0, 0, 2, 100, 0, 1, 97, 100, 0, 1, 98, 106], None))
  {
    var a, b := Value.Atom([97]), Value.Atom([98]);
    WrittenAtom([97]);
    WrittenAtom([98]);
    WrittenTwo(a, b);
    ListLayout([a, b]);
    SmallCount(2);
    EncodeWrote(Value.List([a, b]));
    ListAtomsBytes();
  }
  lemma FixtureListTwo()
    ensures Encode(Value.List([Value.Int(1), Value.Int(2)]))
         == Returned(Encoding([131] + [108, 0, 0, 0, 2, 97, 1, 97, 2, 106], None))
  {
    var a, b := Value.Int(1), Value.Int(2);
    WrittenSmallInt(1);
    WrittenSmallInt(2);
    WrittenTwo(a, b);
    ListLayout([a, b]);
    SmallCount(2);
    EncodeWrote(Value.List([a, b]));
    ListTwoBytes();
  }
  lemma FixtureResponse()
    ensures MarshalResponse(Value.Tuple([Value.Atom([114, 101, 112, 108, 121]), Value.Int(42)]))
         == Returned(Encoding([0, 0, 0, 13] + ([131] + [104, 2, 100, 0, 5, 114, 101, 112, 108, 121, 97, 42]), None))
  {
    var v := Value.Tuple([Value.Atom([114, 101, 112, 108, 121]), Value.Int(42)]);
    var body: bytes := [104, 2, 100, 0, 5, 114, 101, 112, 108, 121, 97, 42];
    FixtureReply();
    ResponseFrame(v, [131] + body);
    ResponseLength();
  }

  lemma FixtureReply()
    ensures Encode(Value.Tuple([Value.Atom([114, 101, 112, 108, 121]), Value.Int(42)]))
         == Returned(Encoding([131] + [104, 2, 100, 0, 5, 114, 101, 112, 108, 121, 97, 42], None))
  {
    var a, b := Value.Atom([114, 101, 112, 108, 121]), Value.Int(42);
    WrittenAtom([114, 101, 112, 108, 121]);
    WrittenSmallInt(42);
    WrittenTwo(a, b);
    TupleLayout([a, b]);
    EncodeWrote(Value.Tuple([a, b]));
    ReplyBytes();
  }
  /** A response frame is the length of a complete encoding, then the
      encoding. */
  lemma ResponseFrame(v: Value, payload: bytes)
    requires Encode(v) == Returned(Encoding(payload, None))
    ensures MarshalResponse(v) == Returned(Encoding(Put4(|payload| % 0x1_0000_0000) + payload, None))
  {
  }

  lemma ResponseLength()
    ensures |[131] + [104, 2, 100, 0, 5, 114, 101, 112, 108, 121, 97, 42]| % 0x1_0000_0000 == 13
    ensures Put4(13) == [0, 0, 0, 13]
  {
    SmallModulus(13, 0x1_0000_0000);
  }

  /** An unsupported element stops the tuple after the bytes already
      written; a list still gets its terminator. */
  lemma PartialOutputOnError()
    ensures Encode(Value.Tuple([Value.Int(1), Value.Unsupported, Value.Int(2)]))
         == Returned(Encoding([131, 104, 3, 97, 1], Some(UnknownType)))
    ensures Encode(Value.List([Value.Int(1), Value.Unsupported, Value.Int(2)]))
         == Returned(Encoding([131, 108, 0, 0, 0, 3, 97, 1, 106], Some(UnknownType)))
  {
    PartialElements();
    PartialTuple();
    PartialList();
  }

  /** The element loop stops at the unsupported element with its error. */
  lemma PartialElements()
    ensures WriteAll([Value.Int(1), Value.Unsupported, Value.Int(2)]) == Emit([97, 1], WriteError(UnknownType))
  {
    var elems := [Value.Int(1), Value.Unsupported, Value.Int(2)];
    assert elems[1..] == [Value.Unsupported, Value.Int(2)];
    assert WriteAll(elems[1..]) == Emit([], WriteError(UnknownType));
    assert [97, 1] + [] == [97, 1];
  }

  lemma PartialTuple()
    requires WriteAll([Value.Int(1), Value.Unsupported, Value.Int(2)]) == Emit([97, 1], WriteError(UnknownType))
    ensures Encode(Value.Tuple([Value.Int(1), Value.Unsupported, Value.Int(2)]))
         == Returned(Encoding([131, 104, 3, 97, 1], Some(UnknownType)))
  {
    var v := Value.Tuple([Value.Int(1), Value.Unsupported, Value.Int(2)]);
    assert Write(v) == Emit([104, 3] + [97, 1], WriteError(UnknownType));
    assert [VersionTag] + ([104, 3] + [97, 1]) == [131, 104, 3, 97, 1];
  }

  lemma PartialList()
    requires WriteAll([Value.Int(1), Value.Unsupported, Value.Int(2)]) == Emit([97, 1], WriteError(UnknownType))
    ensures Encode(Value.List([Value.Int(1), Value.Unsupported, Value.Int(2)]))
         == Returned(Encoding([131, 108, 0, 0, 0, 3, 97, 1, 106], Some(UnknownType)))
  {
    var v := Value.List([Value.Int(1), Value.Unsupported, Value.Int(2)]);
    SmallModulus(3, 0x1_0000_0000);
    assert Put4(3) == [0, 0, 0, 3];
    assert Write(v) == Emit([108] + [0, 0, 0, 3] + [97, 1] + [106], WriteError(UnknownType));
    assert [VersionTag] + ([108] + [0, 0, 0, 3] + [97, 1] + [106]) == [131, 108, 0, 0, 0, 3, 97, 1, 106];
  }
}

=== FILE: bert_types.dfy ===
/** The data model of the BERT codec: the wire tags, the special atoms, the
    values the encoder accepts, the terms the decoder produces, the BURP
    request record, and the outcomes of a call (a return, an error, a panic).

    Integers are unbounded; every fixed width of the wire format is written
    out explicitly where it matters. */
module BertTypes {

  type uint8 = x: int | 0 <= x < 0x100
  type uint16 = x: int | 0 <= x < 0x1_0000
  type uint32 = x: int | 0 <= x < 0x1_0000_0000
  type bytes = seq<uint8>

  // ---------------------------------------------------------------------
  // Tags

  const VersionTag: uint8 := 131
  const SmallIntTag: uint8 := 97
  const IntTag: uint8 := 98
  const SmallBignumTag: uint8 := 110
  const LargeBignumTag: uint8 := 111
  const FloatTag: uint8 := 99
  const AtomTag: uint8 := 100
  const SmallTupleTag: uint8 := 104
  const LargeTupleTag: uint8 := 105
  const NilTag: uint8 := 106
  const StringTag: uint8 := 107
  const ListTag: uint8 := 108
  const BinTag: uint8 := 109
  const BitTag: uint8 := 77

  /** Every tag constant that prefixes a value (all but the version marker). */
  const ValueTags: seq<uint8> := [SmallIntTag, IntTag, SmallBignumTag, LargeBignumTag, FloatTag,
                                  AtomTag, SmallTupleTag, LargeTupleTag, NilTag, StringTag,
                                  ListTag, BinTag, BitTag]

  /** The thirteen value tags are pairwise distinct, and the version marker is
      none of them, so one byte identifies the variant. */
  lemma TagsDistinct()
    ensures |ValueTags| == 13
    ensures forall i, j | 0 <= i < j < |ValueTags| :: ValueTags[i] != ValueTags[j]
    ensures forall i | 0 <= i < |ValueTags| :: ValueTags[i] != VersionTag
  {
  }

  // ---------------------------------------------------------------------
  // Atoms

  const BertAtom: bytes := [98, 101, 114, 116]         // "bert"
  const NilAtom: bytes := [110, 105, 108]              // "nil"
  const TrueAtom: bytes := [116, 114, 117, 101]        // "true"
  const FalseAtom: bytes := [102, 97, 108, 115, 101]   // "false"

  /** The four special atoms are four different names. */
  lemma SpecialAtomsDistinct()
    ensures |{BertAtom, NilAtom, TrueAtom, FalseAtom}| == 4
  {
    assert BertAtom[0] != NilAtom[0] && BertAtom[0] != TrueAtom[0] && BertAtom[0] != FalseAtom[0];
    assert NilAtom[0] != TrueAtom[0] && NilAtom[0] != FalseAtom[0] && TrueAtom[0] != FalseAtom[0];
  }

  // ---------------------------------------------------------------------
  // Bitstrings

  /** Number of whole bytes needed to hold `bits` bits, as the encoder
      computes it: (bits + 7) / 8. */
  function BitPayloadSize(bits: uint8): (n: nat)
    ensures n <= 32
    ensures bits <= 8 * n < bits + 8
  {
    (bits + 7) / 8
  }

  // ---------------------------------------------------------------------
  // Values and terms

  /** The text of a float formatted with `%.20e`: at most 31 bytes (it always
      fits the fixed payload) and free of zero bytes. The formatting itself
      is not modelled. */
  type FloatText = t: bytes | |t| <= 31 && forall i | 0 <= i < |t| :: t[i] != 0 witness []

  /** What the encoder is given, classified by its Go shape. Every integer
      kind and big.Int is widened to `Int`; an `Atom`-typed string is `Atom`,
      any other string is `Str`; a []byte is `Bin`; any other slice is
      `Tuple`; an array or a `List` is `List`; a `Bitstring` is `Bits`; an
      absent value is `Nil`; every other shape (bool, map, struct, ...) is
      `Unsupported`. */
  datatype Value =
    | Int(n: int)
    | Float(text: FloatText)
    | Atom(name: bytes)
    | Str(chars: bytes)
    | Bin(data: bytes)
    | Bits(buffer: bytes, bits: uint8)
    | Tuple(elems: seq<Value>)
    | List(items: seq<Value>)
    | Nil
    | Unsupported

  /** What the decoder produces. Tuples, lists and the nil tag all give a
      plain `Seq`; `Bool` and `NilVal` only arise from a collapsed
      `{bert, ...}` tuple. `Float` carries the text handed to the float
      parser. */
  datatype Term =
    | Int(n: int)
    | Float(text: bytes)
    | Atom(name: bytes)
    | Str(chars: bytes)
    | Bin(data: bytes)
    | Bits(buffer: bytes, bits: uint8)
    | Seq(elems: seq<Term>)
    | Bool(b: bool)
    | NilVal

  /** The BURP request envelope; its four fields in declaration order. */
  datatype Request = Request(Kind: bytes, Module: bytes, Function: bytes, Arguments: seq<Term>)

  /** The zero value of a Go `Request`. */
  const ZeroRequest := Request([], [], [], [])

  // ---------------------------------------------------------------------
  // Outcomes

  datatype Error = BadMagic | UnknownType

  datatype Option<T> = None | Some(value: T)

  /** A Go call either returns or panics. */
  datatype Outcome<T> = Returned(value: T) | Panicked

  // ---------------------------------------------------------------------
  // Fixed-width integers on the wire

  /** The big-endian unsigned value of a byte sequence. */
  function Unsigned(bs: bytes): nat
  {
    if bs == [] then 0 else Unsigned(bs[..|bs| - 1]) * 0x100 + bs[|bs| - 1]
  }

  /** The value of two bytes, high byte first. */
  lemma Unsigned2(bs: bytes)
    requires |bs| == 2
    ensures Unsigned(bs) == bs[0] as int * 0x100 + bs[1]
  {
    assert bs[..1] == [bs[0]];
    assert Unsigned(bs[..1]) == Unsigned([]) * 0x100 + bs[0] by {
      assert bs[..1][..0] == [];
    }
  }

  /** The value of four bytes, high byte first. */
  lemma Unsigned4(bs: bytes)
    requires |bs| == 4
    ensures Unsigned(bs) == bs[0] as int * 0x100_0000 + bs[1] as int * 0x1_0000 + bs[2] as int * 0x100 + bs[3]
    ensures Unsigned(bs) < 0x1_0000_0000
  {
    assert bs[..3][..2] == bs[..2];
    Unsigned2(bs[..2]);
  }

  /** The little-endian unsigned value of a byte sequence. */
  function LittleEndian(bs: bytes): nat
  {
    if bs == [] then 0 else bs[0] as int + 0x100 * LittleEndian(bs[1..])
  }

  /** The four bytes at `pos` read big-endian as a signed 32-bit value. */
  function Int32At(s: bytes, pos: nat): (x: int)
    requires pos + 4 <= |s|
    ensures -0x8000_0000 <= x < 0x8000_0000
    ensures Unsigned(s[pos..pos + 4]) < 0x1_0000_0000
    ensures x == AsInt32(Unsigned(s[pos..pos + 4]))
  {
    Unsigned4(s[pos..pos + 4]);
    AsInt32(Unsigned(s[pos..pos + 4]))
  }

  /** Go's `int(int32(u))`: the two's-complement reading of 32 bits. */
  function AsInt32(u: uint32): (x: int)
    ensures -0x8000_0000 <= x < 0x8000_0000
    ensures (x - u) % 0x1_0000_0000 == 0
  {
    if u < 0x8000_0000 then u else u - 0x1_0000_0000
  }
}
